=== FILE: README.md ===
# Sauron Vision Protocol — a verified model of the protocol pipeline

The Sauron Vision Protocol is a line-based text protocol over TCP. This
project models its pipeline, from one line a client sends to the one reply
line the server writes back:

- **Commands** (`commands.dfy`, module `Commands`). These are the three protocol
  commands `PALANTIR_GAZE <location>`, `EYE_OF_SAURON <intensity>` and
  `RING_COMMAND <action...>`. The model covers their lenient parser, their
  defaults (`"unknown"`, `1`, `"assemble"`) and their serialiser.
- **Responses** (`responses.dfy`, module `Responses`). A reply is
  `{statusCode, responseType, message}`. The model covers its wire form
  `code type "message"`, the decoder that cuts at the first two spaces and
  strips one pair of quotes, and the factories for granted visions (with their
  location lore) and for errors.
- **Command processor** (`processor.dfy`, module `Processor`). It is a total
  function from a line to one serialised reply. The source validates each
  command by throwing an `ArgumentException` and catching it again; here that
  validation is a `Result` value. Both `catch` paths are modelled.
- **TCP server** (`server.dfy`, module `Server`). This is a class that holds:
  - the client registry, a map from client id to connection;
  - the listener state;
  - the cancellation and disposal flags;
  - the closed sockets;
  - the raised connected and disconnected events.

  Accepting, disconnecting, stopping and disposing update that state in place.
  The per-connection loop is a method that writes the welcome line and then one
  reply per line read, until a read stops the session.
- **.NET string behaviour** (`text.dfy`, module `Text`). The rest of the model
  depends on this behaviour, so it is written out:
  - `Split` with and without a count, `RemoveEmptyEntries` and `string.Join`;
  - `char.IsWhiteSpace` and `string.IsNullOrWhiteSpace`;
  - invariant case mapping and `OrdinalIgnoreCase`;
  - `int.ToString` and `int.TryParse` over 32-bit integers.

  `Wrappers` holds `Option`, which stands for C# `null`, and `Result`.

Several `Response` factories are called by the processor but not defined in
`Response.cs`:

- `CreateUnknownCommandFormatResponse`;
- `CreateErrorResponse` with a command name;
- `CreateGazeIntensifiedResponse`;
- `CreateMinionsObeyingResponse`.

They are fields of a `Factories` value passed to the processor. The
`*Reply` lemmas hold for any such value. The two factories called inside the `try`
block may fail. An argument fault from them reaches the `ArgumentException`
catch, and any other fault reaches the generic one. Only the lemmas about a
reply's type and its decoding on the client's side assume something about the
factories, through the predicate `Processor.WellFormed`: every reply type they
build is one word without a space.

The processor is injected into the server as a function `string -> string`, as
`ICommandProcessor` is injected in the source. `Server.ServedRepliesDecode`
plugs the processor in and follows a reply from the server to the client's
decoder.

`int.TryParse` is modelled as .NET's default integer style: surrounding
white space, an optional sign, ASCII digits and the 32-bit range.

## Model

| member | source | states |
|---|---|---|
| Text.UpperIsIdempotent | shared/protocol/Models/Command.cs:33 | upper-casing an upper-cased name changes nothing, so canonical names match themselves |
| Text.FoldingsAgree | server/src/Services/CommandProcessor.cs:65 | the ordinal case-insensitive comparison holds exactly when the lower-cased strings are equal, in both directions |
| Text.IsNullOrWhiteSpace | shared/protocol/Models/Command.cs:26 | models `string.IsNullOrWhiteSpace`; its promise is stated by `ParsedIsNotBlank` and `Commands.NameIsNotBlank` |
| Text.EqualsIgnoreCase | server/src/Services/CommandProcessor.cs:65 | models `string.Equals` with `StringComparison.OrdinalIgnoreCase`; its promise is stated by `FoldingsAgree` |
| Text.UpperKeepsWhiteSpace | shared/protocol/Models/Command.cs:33 | upper-casing turns no character into white space or a space, and none out of it |
| Text.IndexOf | shared/protocol/Models/Response.cs:49 | the index found holds the separator and no earlier position does |
| Text.Split | shared/protocol/Models/Command.cs:29 | splitting always gives at least one part |
| Text.Join | shared/protocol/Models/Command.cs:42 | models `string.Join`; its promise is stated by `JoinSplit` and `JoinTokensWellSpaced` |
| Text.JoinSplit | shared/protocol/Models/Command.cs:29 | joining the parts of a split with the separator gives back the original text |
| Text.SplitPartsAvoidSep | shared/protocol/Models/Command.cs:29 | no part of a split contains the separator |
| Text.SplitAtSep | shared/protocol/Models/Command.cs:29 | splitting around one separator is the concatenation of splitting either side |
| Text.SplitAfterPrefix | shared/protocol/Models/Command.cs:29 | text up to the first separator is the first part, and the rest is split on |
| Text.RemoveEmpty | shared/protocol/Models/Command.cs:29 | every part kept is non-empty and comes from the input |
| Text.RemoveEmptyConcat | shared/protocol/Models/Command.cs:29 | dropping empty parts distributes over concatenation |
| Text.TokensAtSpace | shared/protocol/Models/Command.cs:29 | a space separates tokens, and runs of spaces act as one separator |
| Text.TokensOfWord | shared/protocol/Models/Command.cs:29 | a non-empty text without a space, tabs included, is a single token |
| Text.TokensAreWords | shared/protocol/Models/Command.cs:29 | every token is non-empty and holds no space |
| Text.JoinTokensWellSpaced | shared/protocol/Models/Command.cs:42 | rejoining the tokens of well-spaced text with single spaces gives the text back |
| Text.Tokens | shared/protocol/Models/Command.cs:29 | its promise is stated by `TokensAtSpace`, `TokensOfWord`, `TokensAreWords` and `Commands.SpacesBeforeTokens`: space-separated non-empty words, with runs of spaces as one separator |
| Text.SplitAtMost | shared/protocol/Models/Response.cs:49 | a split with a count gives between one and count parts |
| Text.IndexOfAfterPrefix | shared/protocol/Models/Response.cs:49 | the first separator after separator-free text is at that text's length |
| Text.SplitAtMostAfterPrefix | shared/protocol/Models/Response.cs:49 | a counted split takes separator-free text as its first part and splits the rest with one count fewer |
| Text.SplitAtFirstTwo | shared/protocol/Models/Response.cs:49 | a three-way split cuts at the first two separators and keeps later separators in the last part |
| Text.SplitAtMostOneSep | shared/protocol/Models/Response.cs:49-51 | text with fewer than two separators gives fewer than three parts |
| Text.Int32ToString | shared/protocol/Models/Response.cs:38 | models `int.ToString()`; its promise is stated by `ParseFormattedInt32` and `FormattedInt32IsWord` |
| Text.NatToString | shared/protocol/Models/Response.cs:38 | decimal formatting gives a non-empty run of digits |
| Text.DigitsOfNat | shared/protocol/Models/Response.cs:38 | the digits formatted for a number read back as that number |
| Text.TryParseInt32 | shared/protocol/Models/Command.cs:39 | its promise is stated by `ParseFormattedInt32` (every formatted 32-bit integer reads back), `NonNumericIsNone` (text holding a character that cannot be part of an integer is refused) and `ParsedIsNotBlank` |
| Text.NonNumericIsNone | shared/protocol/Models/Command.cs:39 | text holding a character that is not a digit, a sign or number white space does not parse, so "7x", "1.5" and "abc" give no value |
| Text.TrimStartKeepsSolid | shared/protocol/Models/Command.cs:39 | trimming at the start keeps every character that is not number white space |
| Text.TrimEndKeepsSolid | shared/protocol/Models/Command.cs:39 | trimming at the end keeps every character that is not number white space |
| Text.ParseFormattedInt32 | shared/protocol/Models/Response.cs:53 | parsing a formatted 32-bit integer gives it back, negative numbers included |
| Text.FormattedInt32IsTrimmed | shared/protocol/Models/Response.cs:53 | a formatted integer has no surrounding white space to trim |
| Text.FormattedInt32IsWord | shared/protocol/Models/Response.cs:38 | a formatted integer is a non-empty word without spaces |
| Text.TrimStart | shared/protocol/Models/Command.cs:39 | the leading white space `int.TryParse` skips; its promise is stated by `TrimStartKeepsChars` and `TrimStartKeepsSolid` |
| Text.TrimEnd | shared/protocol/Models/Command.cs:39 | the trailing white space `int.TryParse` skips; its promise is stated by `TrimEndKeepsChars` and `TrimEndKeepsSolid` |
| Text.TrimStartKeepsChars | shared/protocol/Models/Command.cs:39 | trimming at the start introduces no character |
| Text.TrimEndKeepsChars | shared/protocol/Models/Command.cs:39 | trimming at the end introduces no character |
| Text.ParsedIsNotBlank | shared/protocol/Models/Response.cs:46-54 | text that parses as an integer is not blank |
| Commands.CommandName | shared/protocol/Models/Command.cs:54-87 | each variant's name is one of the three canonical names |
| Commands.FromProtocolString | shared/protocol/Models/Command.cs:24-46 | blank gives null; a result's name is the upper-cased first token; and a non-blank line whose upper-cased first token is a command name always parses |
| Commands.ToProtocolString | shared/protocol/Models/Command.cs:58-97 | its promise is stated by `Commands.RoundTrip` and `Commands.RoundTripKeepsVariant`: the serialised command parses back to itself when canonical, and to its own variant always |
| Commands.NameIsNotBlank | shared/protocol/Models/Command.cs:33 | a first token that upper-cases to a command name is a non-blank word |
| Commands.CanonicalNamesAreUpper | shared/protocol/Models/Command.cs:54 | the canonical names are fixed points of upper-casing |
| Commands.TokensAfterName | shared/protocol/Models/Command.cs:29 | after a command name and a space come the argument text's tokens |
| Commands.ParseBareName | shared/protocol/Models/Command.cs:35-43 | a name with no argument gives the default location "unknown", intensity 1 or action "assemble" |
| Commands.SpacesHaveNoTokens | shared/protocol/Models/Command.cs:29-31 | a run of spaces has no tokens |
| Commands.SpacesBeforeTokens | shared/protocol/Models/Command.cs:29 | spaces before a text add no token to it |
| Commands.LeadingSpacesIgnored | shared/protocol/Models/Command.cs:24-46 | a line parses the same with any number of spaces in front of it |
| Commands.ParseGaze | shared/protocol/Models/Command.cs:35-36 | the location is exactly the first token after the name, however many spaces come before it, and later tokens are ignored |
| Commands.ParseEye | shared/protocol/Models/Command.cs:38-39 | the intensity is the integer value of the first token after the name, however many spaces come before it, or 1 when it is not an integer; there is no clamping |
| Commands.ParseRing | shared/protocol/Models/Command.cs:41-42 | the action is every token after the name, joined by single spaces |
| Commands.SameFoldSameSpacing | shared/protocol/Models/Command.cs:33 | words equal up to case hold white space at the same positions, and neither holds a space when one does not |
| Commands.SameTokensUpToCase | shared/protocol/Models/Command.cs:24-46 | lines whose tokens agree except for the case of the first parse alike |
| Commands.NameIgnoresCase | shared/protocol/Models/Command.cs:33 | names equal up to case give the same command |
| Commands.ParsedLocationIsWord | shared/protocol/Models/Command.cs:35-37 | a parsed location is a non-empty word without spaces |
| Commands.RoundTrip | shared/protocol/Models/Command.cs:29-43 | parsing a serialised command gives it back: every intensity, a one-word location, a well-spaced action |
| Commands.RoundTripKeepsVariant | shared/protocol/Models/Command.cs:58-97 | every serialised command parses back to the same variant |
| Commands.ParseKeepsOutOfRangeIntensity | shared/protocol/Models/Command.cs:38-39 | intensities 0 and 11 are kept by the parser |
| Responses.ToProtocolString | shared/protocol/Models/Response.cs:36-39 | its promise is stated by `Responses.RoundTrip`: the decoder gives back every reply whose type has no space, whatever its message holds |
| Responses.StripQuotes | shared/protocol/Models/Response.cs:57-59 | one pair of quotes is removed when both are there and the length is at least 2; otherwise the text is unchanged |
| Responses.FromProtocolString | shared/protocol/Models/Response.cs:46-47 | blank text decodes to null |
| Responses.DecodeCutsAtFirstTwoSpaces | shared/protocol/Models/Response.cs:44-62 | the code is before the first space, the type lies between the first two, and the unquoted message is all the rest; a non-integer code gives null |
| Responses.DecodeNeedsTwoSpaces | shared/protocol/Models/Response.cs:49-51 | text with fewer than two spaces decodes to null |
| Responses.RoundTrip | shared/protocol/Models/Response.cs:36-61 | decoding a serialised reply whose type has no space gives it back, spaces and quotes in the message included |
| Responses.GenerateLocationDescription | shared/protocol/Models/Response.cs:91-105 | every location outside the eight known ones gets the scouts text naming it verbatim |
| Responses.DescriptionIgnoresCaseOfKnown | shared/protocol/Models/Response.cs:93 | a known location's description does not depend on its case |
| Responses.CreateVisionGrantedResponse | shared/protocol/Models/Response.cs:67-74 | the reply has status 200 and type VISION_GRANTED, and its message starts "The eye of Sauron turns to <location>. " |
| Responses.GrantedReplyDecodes | shared/protocol/Models/Response.cs:67-74 | a granted vision survives the wire for any location |
| Responses.CreateErrorResponse | shared/protocol/Models/Response.cs:79-86 | its promise is stated by `ErrorReplyDecodes`: the error reply for any message reaches the client as status 500, type VISION_DENIED and that message |
| Responses.ErrorReplyDecodes | shared/protocol/Models/Response.cs:79-86 | the error reply for any message decodes on the client's side to status 500, type VISION_DENIED and that message unchanged |
| Processor.ProcessPalantirGazeCommand | server/src/Services/CommandProcessor.cs:61-72 | it fails exactly when the location is blank or "unknown" in any case, with the location-required message; otherwise it grants with status 200 |
| Processor.Recover | server/src/Services/CommandProcessor.cs:46-55 | its promise is stated by `ParsedLineReply`: at line level, a handler's argument fault is answered with an error reply under the command's name carrying the fault's message, and any other fault with the fixed internal-error reply |
| Processor.ProcessEyeOfSauronCommand | server/src/Services/CommandProcessor.cs:74-85 | its promise is stated by `EyeReply` and `EyeIntensityReply`: an intensity outside 1..10 is refused with the range message, and one inside goes to the intensified factory |
| Processor.ProcessRingCommand | server/src/Services/CommandProcessor.cs:87-99 | its promise is stated by `RingReply` and `RingWithoutActionReply`: a blank or "assemble" action is refused, and any other goes to the minions factory |
| Processor.Dispatch | server/src/Services/CommandProcessor.cs:37-44 | its promise is stated by `GazeReply`, `EyeReply` and `RingReply`: each variant reaches its own handler |
| Processor.ProcessResponse | server/src/Services/CommandProcessor.cs:24-55 | its promise is stated by `UnparsableLineReply`, the `*Reply` lemmas and `ReplyTypeIsWord` |
| Processor.ProcessCommandAsync | server/src/Services/CommandProcessor.cs:19-59 | its promise is stated by `ReplyDecodes`: it always returns exactly one serialised reply, and that reply decodes to the response built |
| Processor.ParsedLineReply | server/src/Services/CommandProcessor.cs:33-58 | a parsed line is answered with its handler's response, an argument fault with an error reply under the command's name and the fault's message, and any other fault with the INTERNAL_SERVER_ERROR reply |
| Processor.UnparsableLineReply | server/src/Services/CommandProcessor.cs:24-31 | a blank line or an unknown first token gets the unknown-format reply |
| Processor.GazeReply | server/src/Services/CommandProcessor.cs:37-50 | a gaze line with any spacing is answered with the vision for its first argument token, or, when that is blank or "unknown" in any case, with the location-required error under the command's name |
| Processor.GazeWithoutLocationReply | server/src/Services/CommandProcessor.cs:65-69 | a gaze without a location is always refused, because the default "unknown" is rejected |
| Processor.EyeReply | server/src/Services/CommandProcessor.cs:40-84 | an eye line with any spacing goes to the intensified factory when its parsed intensity is in 1..10, a factory fault going through the catch paths at 46-55, and is refused with the range message otherwise |
| Processor.EyeIntensityReply | server/src/Services/CommandProcessor.cs:78-84 | a formatted intensity is answered by the range check alone |
| Processor.EyeNonNumericReply | server/src/Services/CommandProcessor.cs:78-84 | an eye line whose argument holds any character that cannot be part of an integer is read as intensity 1 and goes to the intensified factory, with any spacing |
| Processor.AbcIsNotANumber | shared/protocol/Models/Command.cs:39 | "abc" does not parse as an integer |
| Processor.EyeWithoutArgumentReply | server/src/Services/CommandProcessor.cs:78-84 | an eye line without an argument is accepted with intensity 1 |
| Processor.RingReply | server/src/Services/CommandProcessor.cs:41-98 | a ring line's joined action is refused with the action-required message when blank or "assemble" in any case, and otherwise goes to the minions factory, a factory fault going through the catch paths at 46-55 |
| Processor.RingWithoutActionReply | server/src/Services/CommandProcessor.cs:91-95 | a ring line without an action is always refused, because the default "assemble" is rejected |
| Processor.LeadingSpacesReply | server/src/Services/CommandProcessor.cs:24 | spaces in front of a line do not change its reply |
| Processor.MinasTirithUnreachable | shared/protocol/Models/Response.cs:100 | no parsed gaze location lower-cases to "minas tirith" |
| Processor.HandledTypeIsWord | server/src/Services/CommandProcessor.cs:33-55 | with well-formed factories, every handled command's reply type is one word |
| Processor.ReplyTypeIsWord | server/src/Services/CommandProcessor.cs:19-59 | with well-formed factories, every reply type is one word; the granted and denied types of `Response.cs` (VISION_GRANTED, VISION_DENIED) are words by construction |
| Processor.ReplyDecodes | server/src/Services/CommandProcessor.cs:58 | every serialised reply decodes to the response the processor built |
| Server.Session | server/src/Services/TcpServer.cs:129-137 | a session handles at most one line per read |
| Server.SessionLinesAreRead | server/src/Services/TcpServer.cs:131-137 | each session line is the non-empty line read at that position |
| Server.Stops | server/src/Services/TcpServer.cs:131-137 | its promise is stated by `SessionEndsAtFirstStop` and `SessionIgnoresLaterReads`: an empty line, end of stream or a fault ends the session there |
| Server.SessionEndsAtFirstStop | server/src/Services/TcpServer.cs:133-137 | the session runs up to the first empty line, end of stream or fault, and no further |
| Server.SessionIgnoresLaterReads | server/src/Services/TcpServer.cs:133-137 | reads after the one that stops a session are never processed |
| Server.Transcript | server/src/Services/TcpServer.cs:127-153 | its promise is stated by `TranscriptAnswersEachLine`, and `Converse` is proved to write it |
| Server.Replies | server/src/Services/TcpServer.cs:146-149 | its promise is stated by `TranscriptAnswersEachLine`: one reply per session line, each the processor's answer to the line at the same position |
| Server.TranscriptAnswersEachLine | server/src/Services/TcpServer.cs:127-153 | the welcome line comes first, and each later line is the processor's reply to the line read at the same position, one reply per session line |
| Server.ServedRepliesDecode | server/src/Services/TcpServer.cs:146-149 | with the command processor plugged in, each written reply decodes to the processor's response for its line |
| Server.Converse | server/src/Services/TcpServer.cs:127-153 | the loop writes exactly the transcript: the welcome line, then a reply per session line unless cancelled |
| Server.AcceptOne | server/src/Services/TcpServer.cs:82-114 | its promise is stated by `AcceptOneAdmits` and, across a run, by `AcceptAllRegistersFresh` and the refusal lemmas |
| Server.AcceptAll | server/src/Services/TcpServer.cs:72-115 | its promise is stated by `AcceptAllRegistersFresh` (every accepted client with a new id is registered, started and announced), `AcceptAllAdmits` and the three refusal lemmas |
| Server.AcceptOneAdmits | server/src/Services/TcpServer.cs:82-106 | one accept keeps the registry's promises: old entries kept, fresh ids, one event per started handler |
| Server.AcceptAllAdmits | server/src/Services/TcpServer.cs:70-116 | the accept loop registers exactly the started connections, each once under a fresh id, keeps earlier ones and announces each; `AcceptAllRegistersFresh` adds that every accepted client with a new id is among them |
| Server.AcceptAllRegistersFresh | server/src/Services/TcpServer.cs:92-100 | every accepted client whose id was new when it came is registered under that id with its socket, its handler is the next one started, and its connected event carries the remote end point or "unknown" |
| Server.AcceptAllAnnouncesEach | server/src/Services/TcpServer.cs:96-100 | the accept loop raises exactly one connected event per handler it starts |
| Server.ExtendsTransitive | server/src/Services/TcpServer.cs:72-115 | carrying on from an earlier accept state is transitive |
| Server.AcceptAllExtends | server/src/Services/TcpServer.cs:72-115 | later arrivals only extend what earlier ones did: handlers are started and events raised at the end, and no registration, with its connection, and no disposed socket is lost |
| Server.PriorOfPrefix | server/src/Services/TcpServer.cs:72-115 | the state after the first arrivals does not depend on later ones |
| Server.AcceptAllDisposesRefused | server/src/Services/TcpServer.cs:102-106 | every client whose id was already registered when it came has its socket disposed |
| Server.AcceptAllDisposesOnlyRefused | server/src/Services/TcpServer.cs:92-106 | every socket the accept loop disposes came with a client whose id was already registered |
| Server.AcceptAllStartsNoRefused | server/src/Services/TcpServer.cs:92-106 | no handler is started for a refused client: every handler started after it came is for another id |
| Server.TcpServer.constructor | server/src/Services/TcpServer.cs:14-29 | a new server has no listener, no clients, no cancellation and no events |
| Server.TcpServer.Start | server/src/Services/TcpServer.cs:31-50 | it succeeds exactly for a valid port that binds before disposal; an invalid port leaves the listener, and a failed bind leaves a listener that does not listen |
| Server.TcpServer.AcceptClients | server/src/Services/TcpServer.cs:70-116 | without cancellation and with a listening listener, the registry, started handlers, events and disposed sockets are the accept fold's; otherwise nothing changes |
| Server.TcpServer.HandleClient | server/src/Services/TcpServer.cs:118-164 | it writes the transcript, or nothing for a disposed socket, and then always disconnects the client |
| Server.TcpServer.DisconnectClient | server/src/Services/TcpServer.cs:166-185 | a registered id is removed, its socket closed and one event raised; an unknown id changes nothing |
| Server.TcpServer.Stop | server/src/Services/TcpServer.cs:52-68 | it cancels, stops the listener and disconnects every client once, emptying the registry; after disposal it fails and changes nothing |
| Server.TcpServer.DisconnectAll | server/src/Services/TcpServer.cs:62-65 | the disconnected events are a permutation of the old ids, every socket is closed and the registry is empty |
| Server.TcpServer.Dispose | server/src/Services/TcpServer.cs:187-191 | the first call cancels, stops the listener, closes every socket and empties the registry without raising events; later calls change nothing |
| Server.TcpServer.DisposeCore | server/src/Services/TcpServer.cs:193-212 | it is idempotent; when disposing, it cancels, stops the listener, disposes every socket without events and clears the registry |

## Left out

- Sockets, streams, `async`/`Task` and logging are left out. A connection's input is a sequence of reads, and sockets are opaque numbers.
- Concurrency is left out. The tasks that `StartAsync` and `AcceptClientsAsync` start run one after the other, as the caller invokes `AcceptClients` and `HandleClient`.
- The order in which `ConcurrentDictionary` enumerates clients is not modelled. `Stop` only promises that the disconnect events are a permutation of the old ids.
- The `DataReceived` event is left out. It carries only the line that was read.
- The one-second `Task.Delay` after a failed accept is left out. A failed accept changes nothing in the model.
- `Guid.NewGuid()` is an input: each accepted arrival carries its id.
- Server.TcpServer.HandleClient: takes the cancellation flag once, at the start of the session. A `StopAsync` that runs while a session is active is not interleaved with it.
- Server.TcpServer.HandleClient: write faults are not modelled. `GetStream` fails only for a socket that is already disposed.
- Server.TcpServer.Dispose: `GC.SuppressFinalize` has no counterpart.
- Server.TcpServer.DisconnectClient: an exception from `Close` or `Dispose` is swallowed in the source. The model always counts the socket as closed.
- Processor.ProcessResponse: the fallback arm of the switch, with its three-argument `CreateErrorResponse`, has no counterpart. The command type is closed, so that arm cannot be reached.
- Processor.Factories: the bodies of the four factories missing from `Response.cs` are not modelled. Their status codes and texts stay unknown, and the two factories called outside the `try` block are taken not to throw.
- Text.TryParseInt32: the trailing NUL characters that .NET also accepts are not modelled.
- Text.ToUpperString: case mapping covers ASCII letters only, as does `OrdinalIgnoreCase` in `EqualsIgnoreCase`.
- Responses.StripQuotes: `StartsWith` and `EndsWith` are culture-sensitive in .NET. Here they compare the quote character ordinally.
- A C# `null` line is not modelled separately. It takes the same path as a blank line and gives the same result.

=== FILE: commands.dfy ===
/**
 * The three protocol commands, their parser and their serialiser
 * (shared/protocol/Models/Command.cs).
 */
module Commands {
  import opened Wrappers
  import opened Text

  /** The closed set of commands; each field starts at its default when the
      line carries no argument. */
  datatype Command =
    | PalantirGaze(location: string)
    | EyeOfSauron(intensity: Int32)
    | Ring(action: string)

  const DefaultLocation: string := "unknown"
  const DefaultIntensity: Int32 := 1
  const DefaultAction: string := "assemble"

  const PalantirGazeName: string := "PALANTIR_GAZE"
  const EyeOfSauronName: string := "EYE_OF_SAURON"
  const RingCommandName: string := "RING_COMMAND"

  const CommandNames: set<string> := {PalantirGazeName, EyeOfSauronName, RingCommandName}

  /** The canonical, upper-case name of each variant. */
  function CommandName(c: Command): (name: string)
    ensures name in CommandNames
  {
    match c
    case PalantirGaze(_) => PalantirGazeName
    case EyeOfSauron(_) => EyeOfSauronName
    case Ring(_) => RingCommandName
  }

  /** The canonical name, one space, then the variant's field. */
  function ToProtocolString(c: Command): string {
    match c
    case PalantirGaze(location) => PalantirGazeName + " " + location
    case EyeOfSauron(intensity) => EyeOfSauronName + " " + Int32ToString(intensity)
    case Ring(action) => RingCommandName + " " + action
  }

  /** Decodes one line, or gives None (C# null) for a blank line or an unknown
      command name. The name is the first space-separated token, compared after
      upper-casing. */
  function FromProtocolString(s: string): (r: Option<Command>)
    ensures IsNullOrWhiteSpace(s) ==> r == None
    ensures r.Some? ==> |Tokens(s)| > 0 && ToUpperString(Tokens(s)[0]) == CommandName(r.value)
    ensures !IsNullOrWhiteSpace(s) && |Tokens(s)| > 0 && ToUpperString(Tokens(s)[0]) in CommandNames
            ==> r.Some?
  {
    if IsNullOrWhiteSpace(s) then None
    else
      var parts := Tokens(s);
      if |parts| == 0 then None
      else
        match ToUpperString(parts[0])
        case "PALANTIR_GAZE" =>
          Some(if |parts| > 1 then PalantirGaze(parts[1]) else PalantirGaze(DefaultLocation))
        case "EYE_OF_SAURON" =>
          Some(if |parts| > 1 then EyeOfSauron(TryParseInt32(parts[1]).GetOr(1))
               else EyeOfSauron(DefaultIntensity))
        case "RING_COMMAND" =>
          Some(if |parts| > 1 then Ring(Join(" ", parts[1..])) else Ring(DefaultAction))
        case _ => None
  }

  // ---------------------------------------------------------------------------
  // Properties of the parser

  /** A first word that upper-cases to a command name is a non-blank word. */
  lemma NameIsNotBlank(name: string)
    requires ToUpperString(name) in CommandNames
    ensures name != "" && ' ' !in name && !IsWhiteSpace(name[0])
  {
    assert ToUpperString(name)[0] == ToUpper(name[0]);
    assert ' ' !in ToUpperString(name);
    forall i | 0 <= i < |name|
      ensures name[i] != ' '
    {
      assert ToUpperString(name)[i] in ToUpperString(name);
      UpperKeepsWhiteSpace(name[i]);
    }
  }

  /** The canonical names are already upper case. */
  lemma CanonicalNamesAreUpper()
    ensures forall n :: n in CommandNames ==> ToUpperString(n) == n
  {
    forall n | n in CommandNames
      ensures ToUpperString(n) == n
    {
      assert forall i :: 0 <= i < |n| ==> !('a' <= n[i] <= 'z');
    }
  }

  /** After a command name and a space come the tokens of the argument text. */
  lemma TokensAfterName(name: string, args: string)
    requires ToUpperString(name) in CommandNames
    ensures !IsNullOrWhiteSpace(name + " " + args)
    ensures Tokens(name + " " + args) == [name] + Tokens(args)
  {
    NameIsNotBlank(name);
    assert (name + " " + args)[0] == name[0];
    TokensAtSpace(name, args);
    TokensOfWord(name);
  }

  /** A name followed only by spaces gives the variant with its default field. */
  lemma {:induction false} ParseBareName(name: string, pad: nat)
    requires ToUpperString(name) in CommandNames
    ensures var line := name + seq(pad, _ => ' ');
      && (ToUpperString(name) == PalantirGazeName ==> FromProtocolString(line) == Some(PalantirGaze(DefaultLocation)))
      && (ToUpperString(name) == EyeOfSauronName ==> FromProtocolString(line) == Some(EyeOfSauron(DefaultIntensity)))
      && (ToUpperString(name) == RingCommandName ==> FromProtocolString(line) == Some(Ring(DefaultAction)))
  {
    var line := name + seq(pad, _ => ' ');
    assert !IsNullOrWhiteSpace(line) && Tokens(line) == [name] by {
      NameIsNotBlank(name);
      assert line[0] == name[0];
      TokensOfWord(name);
      if pad > 0 {
        var spaces := seq(pad - 1, _ => ' ');
        assert line == name + " " + spaces;
        TokensAtSpace(name, spaces);
        SpacesHaveNoTokens(spaces);
      } else {
        assert line == name;
      }
    }
  }

  lemma {:induction false} SpacesHaveNoTokens(spaces: string)
    requires forall i :: 0 <= i < |spaces| ==> spaces[i] == ' '
    ensures Tokens(spaces) == []
    decreases |spaces|
  {
    if |spaces| > 0 {
      var rest := spaces[1..];
      assert spaces == "" + " " + rest;
      TokensAtSpace("", rest);
      SpacesHaveNoTokens(rest);
      assert Split("", ' ') == [""];
    }
  }

  /** Spaces before a text add no token to it. */
  lemma {:induction false} SpacesBeforeTokens(pad: nat, s: string)
    ensures Tokens(seq(pad, _ => ' ') + s) == Tokens(s)
    decreases pad
  {
    if pad > 0 {
      var rest := seq(pad - 1, _ => ' ') + s;
      assert seq(pad, _ => ' ') + s == "" + " " + rest;
      TokensAtSpace("", rest);
      assert Split("", ' ') == [""];
      assert RemoveEmpty([""]) == [];
      SpacesBeforeTokens(pad - 1, s);
    } else {
      assert seq(pad, _ => ' ') + s == s;
    }
  }

  /** Leading spaces do not change how a line parses. */
  lemma LeadingSpacesIgnored(pad: nat, line: string)
    ensures FromProtocolString(seq(pad, _ => ' ') + line) == FromProtocolString(line)
  {
    var padded := seq(pad, _ => ' ') + line;
    assert IsNullOrWhiteSpace(padded) == IsNullOrWhiteSpace(line) by {
      assert forall i :: 0 <= i < |line| ==> padded[pad + i] == line[i];
      assert forall i :: 0 <= i < pad ==> padded[i] == ' ';
    }
    SpacesBeforeTokens(pad, line);
  }

  /** `PALANTIR_GAZE` takes exactly its first argument token as the location,
      however many spaces come before it; later tokens are ignored. */
  lemma ParseGaze(name: string, args: string)
    requires ToUpperString(name) == PalantirGazeName
    requires Tokens(args) != []
    ensures FromProtocolString(name + " " + args) == Some(PalantirGaze(Tokens(args)[0]))
  {
    TokensAfterName(name, args);
    assert ([name] + Tokens(args))[1] == Tokens(args)[0];
  }

  /** `EYE_OF_SAURON` takes the integer value of its first argument token, 1
      when that token is not an integer; the value is not clamped to any
      range, and later tokens are ignored. */
  lemma ParseEye(name: string, args: string)
    requires ToUpperString(name) == EyeOfSauronName
    requires Tokens(args) != []
    ensures FromProtocolString(name + " " + args)
            == Some(EyeOfSauron(TryParseInt32(Tokens(args)[0]).GetOr(1)))
  {
    TokensAfterName(name, args);
    assert ([name] + Tokens(args))[1] == Tokens(args)[0];
  }

  /** `RING_COMMAND` joins every token after the name with single spaces. */
  lemma ParseRing(name: string, args: string)
    requires ToUpperString(name) == RingCommandName
    requires Tokens(args) != []
    ensures FromProtocolString(name + " " + args) == Some(Ring(Join(" ", Tokens(args))))
  {
    TokensAfterName(name, args);
    assert ([name] + Tokens(args))[1..] == Tokens(args);
  }

  /** Words equal up to case have the same length and white space, and so
      neither holds a space when one does not. */
  lemma SameFoldSameSpacing(a: string, b: string)
    requires ToUpperString(a) == ToUpperString(b)
    requires a != "" && ' ' !in a
    ensures b != "" && ' ' !in b
    ensures forall i :: 0 <= i < |a| ==> IsWhiteSpace(a[i]) == IsWhiteSpace(b[i])
  {
    forall i | 0 <= i < |a|
      ensures b[i] != ' ' && IsWhiteSpace(a[i]) == IsWhiteSpace(b[i])
    {
      assert ToUpperString(a)[i] == ToUpperString(b)[i];
      assert a[i] in a;
      UpperKeepsWhiteSpace(a[i]);
      UpperKeepsWhiteSpace(b[i]);
    }
  }

  /** The command name is matched without regard to case. */
  lemma NameIgnoresCase(a: string, b: string, args: string)
    requires ToUpperString(a) == ToUpperString(b)
    requires a != "" && ' ' !in a
    ensures FromProtocolString(a + " " + args) == FromProtocolString(b + " " + args)
  {
    SameFoldSameSpacing(a, b);
    var la, lb := a + " " + args, b + " " + args;
    assert IsNullOrWhiteSpace(la) == IsNullOrWhiteSpace(lb) by {
      assert forall i :: 0 <= i < |a| ==> la[i] == a[i] && lb[i] == b[i];
      assert forall i :: |a| <= i < |la| ==> la[i] == lb[i];
    }
    assert Tokens(la) == [a] + Tokens(args) by {
      TokensAtSpace(a, args);
      TokensOfWord(a);
    }
    assert Tokens(lb) == [b] + Tokens(args) by {
      TokensAtSpace(b, args);
      TokensOfWord(b);
    }
    assert ([a] + Tokens(args))[1..] == ([b] + Tokens(args))[1..];
    SameTokensUpToCase(la, lb);
  }

  /** Lines that are both blank or both not, whose first tokens agree up to
      case and whose later tokens are the same, parse alike. */
  lemma SameTokensUpToCase(la: string, lb: string)
    requires IsNullOrWhiteSpace(la) == IsNullOrWhiteSpace(lb)
    requires |Tokens(la)| > 0 && |Tokens(lb)| > 0
    requires ToUpperString(Tokens(la)[0]) == ToUpperString(Tokens(lb)[0])
    requires Tokens(la)[1..] == Tokens(lb)[1..]
    ensures FromProtocolString(la) == FromProtocolString(lb)
  {
  }

  /** Every location a parsed `PALANTIR_GAZE` carries is one word. */
  lemma ParsedLocationIsWord(s: string)
    requires FromProtocolString(s).Some? && FromProtocolString(s).value.PalantirGaze?
    ensures var loc := FromProtocolString(s).value.location;
      loc != "" && ' ' !in loc
  {
    TokensAreWords(s);
  }

  // ---------------------------------------------------------------------------
  // Round trips

  /** The commands whose text survives serialising and parsing unchanged. */
  predicate Canonical(c: Command) {
    match c
    case PalantirGaze(location) => location != "" && ' ' !in location
    case EyeOfSauron(_) => true
    case Ring(action) => WellSpaced(action)
  }

  /** Parsing the serialisation of a canonical command gives the command back. */
  lemma RoundTrip(c: Command)
    requires Canonical(c)
    ensures FromProtocolString(ToProtocolString(c)) == Some(c)
  {
    match c
    case PalantirGaze(location) =>
      CanonicalNamesAreUpper();
      TokensOfWord(location);
      ParseGaze(PalantirGazeName, location);
    case EyeOfSauron(intensity) =>
      CanonicalNamesAreUpper();
      FormattedInt32IsWord(intensity);
      ParseFormattedInt32(intensity);
      TokensOfWord(Int32ToString(intensity));
      ParseEye(EyeOfSauronName, Int32ToString(intensity));
    case Ring(action) =>
      CanonicalNamesAreUpper();
      JoinTokensWellSpaced(action);
      ParseRing(RingCommandName, action);
  }

  /** Any serialised command parses back to the same variant; the fields that
      are not canonical come back as the parser reads them. */
  lemma RoundTripKeepsVariant(c: Command)
    ensures var r := FromProtocolString(ToProtocolString(c));
      r.Some? && CommandName(r.value) == CommandName(c)
  {
    CanonicalNamesAreUpper();
    match c
    case PalantirGaze(location) =>
      TokensAfterName(PalantirGazeName, location);
    case EyeOfSauron(intensity) =>
      TokensAfterName(EyeOfSauronName, Int32ToString(intensity));
    case Ring(action) =>
      TokensAfterName(RingCommandName, action);
  }

  /** Out-of-range intensities are kept by the parser, for the processor to reject. */
  lemma ParseKeepsOutOfRangeIntensity()
    ensures FromProtocolString("EYE_OF_SAURON 0") == Some(EyeOfSauron(0))
    ensures FromProtocolString("EYE_OF_SAURON 11") == Some(EyeOfSauron(11))
  {
    assert Int32ToString(0) == NatToString(0) == [DigitChar(0)] == "0";
    assert NatToString(1) == [DigitChar(1)] == "1";
    assert Int32ToString(11) == NatToString(11) == NatToString(1) + [DigitChar(1)] == "11";
    assert ToProtocolString(EyeOfSauron(0)) == "EYE_OF_SAURON 0";
    assert ToProtocolString(EyeOfSauron(11)) == "EYE_OF_SAURON 11";
    RoundTrip(EyeOfSauron(0));
    RoundTrip(EyeOfSauron(11));
  }
}

=== FILE: processor.dfy ===
/**
 * The server's command processor (server/src/Services/CommandProcessor.cs):
 * one line in, exactly one serialised reply out. The validation failures that
 * the source throws as exceptions and catches again are `Result` values here.
 */
module Processor {
  import opened Wrappers
  import opened Text
  import opened Commands
  import opened Responses

  /** What a handler can throw: an `ArgumentException` with its message, or any
      other exception. */
  datatype Fault = ArgumentFault(message: string) | OtherFault

  /**
   * The `Response` factories that the processor calls but that Response.cs does
   * not define, taken as parameters so that nothing is assumed about them. The
   * two called inside the `try` may throw; the two called outside it do not.
   */
  datatype Factories = Factories(
    unknownCommandFormat: Response,
    errorResponse: (string, string) -> Response,
    gazeIntensified: Int32 -> Result<Response, Fault>,
    minionsObeying: string -> Result<Response, Fault>)

  const LocationRequired: string := "A specific location must be named for the Palantir's gaze."
  const IntensityOutOfRange: string := "The Eye's intensity must be a value between 1 and 10."
  const ActionRequired: string := "A specific action must be commanded of the minions."
  const InternalErrorName: string := "INTERNAL_SERVER_ERROR"
  const InternalErrorMessage: string := "A shadow falls upon the server; an unexpected error occurred."

  /** A blank location, or "unknown" in any case (the parser's default), is
      refused; any other location is granted its vision. */
  function ProcessPalantirGazeCommand(location: string): (r: Result<Response, Fault>)
    ensures r.Failure? <==> IsNullOrWhiteSpace(location) || EqualsIgnoreCase(location, "unknown")
    ensures r.Failure? ==> r.error == ArgumentFault(LocationRequired)
    ensures r.Success? ==> r.value.statusCode == 200 && r.value.responseType == VisionGranted
  {
    if IsNullOrWhiteSpace(location) || EqualsIgnoreCase(location, "unknown") then
      Failure(ArgumentFault(LocationRequired))
    else
      Success(CreateVisionGrantedResponse(location))
  }

  /** An intensity outside 1..10 is refused; any other goes to the factory. */
  function ProcessEyeOfSauronCommand(f: Factories, intensity: Int32): (r: Result<Response, Fault>)
    ensures !(1 <= intensity <= 10) ==> r == Failure(ArgumentFault(IntensityOutOfRange))
    ensures 1 <= intensity <= 10 ==> r == f.gazeIntensified(intensity)
  {
    if intensity < 1 || intensity > 10 then Failure(ArgumentFault(IntensityOutOfRange))
    else f.gazeIntensified(intensity)
  }

  /** A blank action, or "assemble" in any case (the parser's default), is
      refused; any other goes to the factory. */
  function ProcessRingCommand(f: Factories, action: string): (r: Result<Response, Fault>)
    ensures IsNullOrWhiteSpace(action) || EqualsIgnoreCase(action, "assemble")
            ==> r == Failure(ArgumentFault(ActionRequired))
    ensures !(IsNullOrWhiteSpace(action) || EqualsIgnoreCase(action, "assemble"))
            ==> r == f.minionsObeying(action)
  {
    if IsNullOrWhiteSpace(action) || EqualsIgnoreCase(action, "assemble") then
      Failure(ArgumentFault(ActionRequired))
    else
      f.minionsObeying(action)
  }

  /** The switch on the command's variant. The source's fallback arm has no
      counterpart: the parser only ever builds these three variants. */
  function Dispatch(f: Factories, c: Command): Result<Response, Fault> {
    match c
    case PalantirGaze(location) => ProcessPalantirGazeCommand(location)
    case EyeOfSauron(intensity) => ProcessEyeOfSauronCommand(f, intensity)
    case Ring(action) => ProcessRingCommand(f, action)
  }

  /** The two `catch` blocks: an argument fault becomes an error reply under the
      command's name with the fault's message, any other fault the fixed
      internal-error reply. */
  function Recover(f: Factories, commandName: string, r: Result<Response, Fault>): (reply: Response)
    ensures r.Success? ==> reply == r.value
    ensures r.Failure? && r.error.ArgumentFault? ==> reply == f.errorResponse(commandName, r.error.message)
    ensures r == Failure(OtherFault) ==> reply == f.errorResponse(InternalErrorName, InternalErrorMessage)
  {
    match r
    case Success(response) => response
    case Failure(ArgumentFault(message)) => f.errorResponse(commandName, message)
    case Failure(OtherFault) => f.errorResponse(InternalErrorName, InternalErrorMessage)
  }

  /** The reply to one line, before serialisation. */
  function ProcessResponse(f: Factories, line: string): Response {
    match Commands.FromProtocolString(line)
    case None => f.unknownCommandFormat
    case Some(c) => Recover(f, CommandName(c), Dispatch(f, c))
  }

  /** `ProcessCommandAsync`: the serialised reply to one line. */
  function ProcessCommandAsync(f: Factories, line: string): string {
    Responses.ToProtocolString(ProcessResponse(f, line))
  }

  // ---------------------------------------------------------------------------
  // Replies to lines

  /** A line that parses is answered by its handler's response; an argument
      fault becomes an error reply under the command's name carrying the
      fault's message, and any other fault the fixed internal-error reply. */
  lemma ParsedLineReply(f: Factories, line: string, c: Command)
    requires Commands.FromProtocolString(line) == Some(c)
    ensures Dispatch(f, c).Success? ==>
      ProcessCommandAsync(f, line) == Responses.ToProtocolString(Dispatch(f, c).value)
    ensures Dispatch(f, c).Failure? && Dispatch(f, c).error.ArgumentFault? ==>
      ProcessCommandAsync(f, line)
        == Responses.ToProtocolString(f.errorResponse(CommandName(c), Dispatch(f, c).error.message))
    ensures Dispatch(f, c) == Failure(OtherFault) ==>
      ProcessCommandAsync(f, line)
        == Responses.ToProtocolString(f.errorResponse(InternalErrorName, InternalErrorMessage))
  {
  }

  /** A blank line, or one whose first token is not a command name, gets the
      unknown-format reply. */
  lemma UnparsableLineReply(f: Factories, line: string)
    requires IsNullOrWhiteSpace(line) || |Tokens(line)| == 0 || ToUpperString(Tokens(line)[0]) !in CommandNames
    ensures ProcessCommandAsync(f, line) == Responses.ToProtocolString(f.unknownCommandFormat)
  {
    if Commands.FromProtocolString(line).Some? {
      assert false;
    }
  }

  /** `PALANTIR_GAZE` with a location: a blank or "unknown" location is refused
      with an error reply under the command's name, any other is granted. */
  lemma GazeReply(f: Factories, name: string, args: string)
    requires ToUpperString(name) == PalantirGazeName
    requires Tokens(args) != []
    ensures var location := Tokens(args)[0];
      ProcessCommandAsync(f, name + " " + args) == Responses.ToProtocolString(
        if IsNullOrWhiteSpace(location) || EqualsIgnoreCase(location, "unknown")
        then f.errorResponse(PalantirGazeName, LocationRequired)
        else CreateVisionGrantedResponse(location))
  {
    ParseGaze(name, args);
  }

  /** `PALANTIR_GAZE` with no location is always refused. */
  lemma GazeWithoutLocationReply(f: Factories, name: string, pad: nat)
    requires ToUpperString(name) == PalantirGazeName
    ensures ProcessCommandAsync(f, name + seq(pad, _ => ' '))
            == Responses.ToProtocolString(f.errorResponse(PalantirGazeName, LocationRequired))
  {
    ParseBareName(name, pad);
    assert EqualsIgnoreCase(DefaultLocation, "unknown");
  }

  /** `EYE_OF_SAURON` with an argument: the parsed value, or 1 when the argument
      is not an integer, goes to the factory when it lies in 1..10 and is
      refused otherwise. */
  lemma EyeReply(f: Factories, name: string, args: string)
    requires ToUpperString(name) == EyeOfSauronName
    requires Tokens(args) != []
    ensures var n := TryParseInt32(Tokens(args)[0]).GetOr(1);
      ProcessCommandAsync(f, name + " " + args) == Responses.ToProtocolString(
        if 1 <= n <= 10 then Recover(f, EyeOfSauronName, f.gazeIntensified(n))
        else f.errorResponse(EyeOfSauronName, IntensityOutOfRange))
  {
    ParseEye(name, args);
  }

  /** A formatted intensity is answered by its range check. */
  lemma EyeIntensityReply(f: Factories, n: Int32)
    ensures ProcessCommandAsync(f, EyeOfSauronName + " " + Int32ToString(n)) == Responses.ToProtocolString(
      if 1 <= n <= 10 then Recover(f, EyeOfSauronName, f.gazeIntensified(n))
      else f.errorResponse(EyeOfSauronName, IntensityOutOfRange))
  {
    CanonicalNamesAreUpper();
    FormattedInt32IsWord(n);
    TokensOfWord(Int32ToString(n));
    ParseFormattedInt32(n);
    EyeReply(f, EyeOfSauronName, Int32ToString(n));
  }

  /** An intensity argument holding a character that cannot be part of an
      integer is read as 1 and so goes to the factory. */
  lemma EyeNonNumericReply(f: Factories, name: string, args: string, i: nat)
    requires ToUpperString(name) == EyeOfSauronName
    requires Tokens(args) != [] && i < |Tokens(args)[0]| && NonNumeric(Tokens(args)[0][i])
    ensures ProcessCommandAsync(f, name + " " + args)
            == Responses.ToProtocolString(Recover(f, EyeOfSauronName, f.gazeIntensified(1)))
  {
    EyeReply(f, name, args);
    NonNumericIsNone(Tokens(args)[0], i);
  }

  lemma AbcIsNotANumber()
    ensures TryParseInt32("abc") == None
  {
    NonNumericIsNone("abc", 0);
  }

  /** `EYE_OF_SAURON` with no argument is the default intensity 1, accepted. */
  lemma EyeWithoutArgumentReply(f: Factories, name: string, pad: nat)
    requires ToUpperString(name) == EyeOfSauronName
    ensures ProcessCommandAsync(f, name + seq(pad, _ => ' '))
            == Responses.ToProtocolString(Recover(f, EyeOfSauronName, f.gazeIntensified(1)))
  {
    ParseBareName(name, pad);
  }

  /** `RING_COMMAND` with arguments: the joined action is refused when blank or
      "assemble" in any case, and goes to the factory otherwise. */
  lemma RingReply(f: Factories, name: string, args: string)
    requires ToUpperString(name) == RingCommandName
    requires Tokens(args) != []
    ensures var action := Join(" ", Tokens(args));
      ProcessCommandAsync(f, name + " " + args) == Responses.ToProtocolString(
        if IsNullOrWhiteSpace(action) || EqualsIgnoreCase(action, "assemble")
        then f.errorResponse(RingCommandName, ActionRequired)
        else Recover(f, RingCommandName, f.minionsObeying(action)))
  {
    ParseRing(name, args);
  }

  /** `RING_COMMAND` with no argument is always refused. */
  lemma RingWithoutActionReply(f: Factories, name: string, pad: nat)
    requires ToUpperString(name) == RingCommandName
    ensures ProcessCommandAsync(f, name + seq(pad, _ => ' '))
            == Responses.ToProtocolString(f.errorResponse(RingCommandName, ActionRequired))
  {
    ParseBareName(name, pad);
  }

  /** Spaces before a line do not change the reply to it. */
  lemma LeadingSpacesReply(f: Factories, pad: nat, line: string)
    ensures ProcessCommandAsync(f, seq(pad, _ => ' ') + line) == ProcessCommandAsync(f, line)
  {
    LeadingSpacesIgnored(pad, line);
  }

  /** The lore entry for "minas tirith" is never reached: a parsed location is
      one word, and case mapping cannot turn a character into a space. */
  lemma MinasTirithUnreachable(f: Factories, line: string)
    requires Commands.FromProtocolString(line).Some?
    requires Commands.FromProtocolString(line).value.PalantirGaze?
    ensures ToLowerString(Commands.FromProtocolString(line).value.location) != "minas tirith"
  {
    var location := Commands.FromProtocolString(line).value.location;
    ParsedLocationIsWord(line);
    if |location| > 5 {
      assert location[5] != ' ' by {
        assert location[5] in location;
      }
      assert ToLowerString(location)[5] != ' ';
    }
  }

  // ---------------------------------------------------------------------------
  // The reply as a whole

  /** Factories whose replies all have a one-word type. */
  ghost predicate WellFormed(f: Factories) {
    && ' ' !in f.unknownCommandFormat.responseType
    && (forall name, message :: ' ' !in f.errorResponse(name, message).responseType)
    && (forall n :: f.gazeIntensified(n).Success? ==> ' ' !in f.gazeIntensified(n).value.responseType)
    && (forall a :: f.minionsObeying(a).Success? ==> ' ' !in f.minionsObeying(a).value.responseType)
  }

  /** With well-formed factories, the reply to any command has a one-word type. */
  lemma HandledTypeIsWord(f: Factories, c: Command)
    requires WellFormed(f)
    ensures ' ' !in Recover(f, CommandName(c), Dispatch(f, c)).responseType
  {
    var d := Dispatch(f, c);
    if d.Failure? {
      if d.error.ArgumentFault? {
        assert ' ' !in f.errorResponse(CommandName(c), d.error.message).responseType;
      } else {
        assert ' ' !in f.errorResponse(InternalErrorName, InternalErrorMessage).responseType;
      }
    } else {
      match c {
        case PalantirGaze(location) =>
          assert d.value.responseType == VisionGranted;
          TypesAreWords();
        case EyeOfSauron(n) =>
          assert f.gazeIntensified(n).Success?;
        case Ring(a) =>
          assert f.minionsObeying(a).Success?;
      }
    }
  }

  /** With well-formed factories, every reply has a one-word type. */
  lemma ReplyTypeIsWord(f: Factories, line: string)
    requires WellFormed(f)
    ensures ' ' !in ProcessResponse(f, line).responseType
  {
    var parsed := Commands.FromProtocolString(line);
    if parsed.Some? {
      HandledTypeIsWord(f, parsed.value);
    }
  }

  /** Every reply the processor sends decodes, on the client's side, to the
      response it serialised. */
  lemma ReplyDecodes(f: Factories, line: string)
    requires WellFormed(f)
    ensures Responses.FromProtocolString(ProcessCommandAsync(f, line)) == Some(ProcessResponse(f, line))
  {
    ReplyTypeIsWord(f, line);
    Responses.RoundTrip(ProcessResponse(f, line));
  }
}

=== FILE: responses.dfy ===
/**
 * The server's reply, its wire form, its lenient decoder and the factories
 * that build replies (shared/protocol/Models/Response.cs).
 */
module Responses {
  import opened Wrappers
  import opened Text

  datatype Response = Response(statusCode: Int32, responseType: string, message: string)

  /** The code, one space, the type, one space, then the message between double
      quotes; nothing inside is escaped. */
  function ToProtocolString(r: Response): string {
    Int32ToString(r.statusCode) + " " + r.responseType + " " + "\"" + r.message + "\""
  }

  /** Removes one leading and one trailing double quote when both are there and
      distinct; any other text is returned as it is. */
  function StripQuotes(m: string): (r: string)
    ensures |m| >= 2 && m[0] == '"' && m[|m| - 1] == '"' ==> m == "\"" + r + "\""
    ensures !(|m| >= 2 && m[0] == '"' && m[|m| - 1] == '"') ==> r == m
  {
    if |m| >= 2 && m[0] == '"' && m[|m| - 1] == '"' then m[1..|m| - 1] else m
  }

  /** Decodes a reply line, or gives None (C# null) for a blank line, for fewer
      than two spaces, or when the text before the first space is not an `int`. */
  function FromProtocolString(s: string): (r: Option<Response>)
    ensures IsNullOrWhiteSpace(s) ==> r == None
  {
    if IsNullOrWhiteSpace(s) then None
    else
      var parts := SplitAtMost(s, ' ', 3);
      if |parts| < 3 then None
      else
        match TryParseInt32(parts[0])
        case None => None
        case Some(statusCode) => Some(Response(statusCode, parts[1], StripQuotes(parts[2])))
  }

  /** The decoder cuts a line at its first two spaces: the code comes before
      the first, the type lies between them, and the message, unquoted, is
      everything after the second, spaces included. */
  lemma DecodeCutsAtFirstTwoSpaces(code: string, responseType: string, rest: string)
    requires ' ' !in code && ' ' !in responseType
    ensures FromProtocolString(code + " " + responseType + " " + rest)
            == match TryParseInt32(code)
               case None => None
               case Some(statusCode) => Some(Response(statusCode, responseType, StripQuotes(rest)))
  {
    var s := code + " " + responseType + " " + rest;
    assert SplitAtMost(s, ' ', 3) == [code, responseType, rest] by {
      SplitAtFirstTwo(code, responseType, rest, ' ');
    }
    if TryParseInt32(code).Some? {
      assert !IsNullOrWhiteSpace(s) by {
        ParsedIsNotBlank(code);
        var i :| 0 <= i < |code| && !IsWhiteSpace(code[i]);
        assert s[i] == code[i];
      }
    }
  }

  /** A line with fewer than two spaces is refused. */
  lemma DecodeNeedsTwoSpaces(s: string)
    requires forall i, j :: 0 <= i < j < |s| ==> !(s[i] == ' ' && s[j] == ' ')
    ensures FromProtocolString(s) == None
  {
    SplitAtMostOneSep(s, ' ');
  }

  /** Decoding the wire form of a reply whose type has no space gives the reply
      back; the message may hold spaces and double quotes. */
  lemma RoundTrip(r: Response)
    requires ' ' !in r.responseType
    ensures FromProtocolString(ToProtocolString(r)) == Some(r)
  {
    var code := Int32ToString(r.statusCode);
    var quoted := "\"" + r.message + "\"";
    assert ToProtocolString(r) == code + " " + r.responseType + " " + quoted;
    FormattedInt32IsWord(r.statusCode);
    ParseFormattedInt32(r.statusCode);
    DecodeCutsAtFirstTwoSpaces(code, r.responseType, quoted);
    assert StripQuotes(quoted) == r.message;
  }

  // ---------------------------------------------------------------------------
  // Factories

  const VisionGranted: string := "VISION_GRANTED"
  const VisionDenied: string := "VISION_DENIED"

  lemma TypesAreWords()
    ensures ' ' !in VisionGranted && ' ' !in VisionDenied
  {
  }

  /** Lower-cased locations that have a description of their own. */
  const KnownLocations: set<string> :=
    {"mordor", "gondor", "rohan", "shire", "isengard", "minas tirith", "moria", "lothlorien"}

  /** The description of the fallback: it names the location as given. */
  function ScoutsText(location: string): string {
    "Unknown territories observed. Sending scouts to investigate " + location + "."
  }

  /** A fixed text for each known location, matched after lower-casing; every
      other location gets the scouts text, which repeats it verbatim. */
  function GenerateLocationDescription(location: string): (d: string)
    ensures ToLowerString(location) !in KnownLocations ==> d == ScoutsText(location)
  {
    match ToLowerString(location)
    case "mordor" => "The dark land teems with orcs and fell beasts preparing for war."
    case "gondor" => "Armies of 5,000 orcs detected. The white city stands vulnerable."
    case "rohan" => "The horse-lords gather their forces. Their defenses are weak."
    case "shire" => "Small, peaceful settlements. No threats detected. Curious halflings about."
    case "isengard" => "Saruman's fortress buzzes with industry and dark purpose."
    case "minas tirith" => "The white tower gleams. Guards of the citadel patrol the seven levels."
    case "moria" => "Ancient dwarf halls now overrun with goblins and darker things below."
    case "lothlorien" => "Elvish magic obscures clear vision. The golden wood hides many secrets."
    case _ => ScoutsText(location)
  }

  /** A known location's description does not depend on how it is capitalised. */
  lemma DescriptionIgnoresCaseOfKnown(a: string, b: string)
    requires ToLowerString(a) == ToLowerString(b) && ToLowerString(a) in KnownLocations
    ensures GenerateLocationDescription(a) == GenerateLocationDescription(b)
  {
  }

  /** Status 200, type VISION_GRANTED, and a message that names the location
      and goes on with its description. */
  function CreateVisionGrantedResponse(location: string): (r: Response)
    ensures r.statusCode == 200 && r.responseType == VisionGranted
    ensures var lead := "The eye of Sauron turns to " + location + ". ";
      |lead| <= |r.message| && r.message[..|lead|] == lead
  {
    Response(200, VisionGranted,
             "The eye of Sauron turns to " + location + ". " + GenerateLocationDescription(location))
  }

  /** Status 500, type VISION_DENIED, and the message as given. */
  function CreateErrorResponse(errorMessage: string): (r: Response)
    ensures r.statusCode == 500 && r.responseType == VisionDenied && r.message == errorMessage
  {
    Response(500, VisionDenied, errorMessage)
  }

  /** A granted vision crosses the wire intact, whatever the location. */
  lemma GrantedReplyDecodes(location: string)
    ensures FromProtocolString(ToProtocolString(CreateVisionGrantedResponse(location)))
            == Some(CreateVisionGrantedResponse(location))
  {
    var r := CreateVisionGrantedResponse(location);
    TypesAreWords();
    RoundTrip(r);
  }

  /** An error reply crosses the wire intact, whatever its message holds. */
  lemma ErrorReplyDecodes(errorMessage: string)
    ensures FromProtocolString(ToProtocolString(CreateErrorResponse(errorMessage)))
            == Some(Response(500, VisionDenied, errorMessage))
  {
    var r := CreateErrorResponse(errorMessage);
    TypesAreWords();
    RoundTrip(r);
  }
}

=== FILE: server.dfy ===
/**
 * The TCP server (server/src/Services/TcpServer.cs) as a sequential state
 * machine: a registry of client connections that accepting adds to and
 * disconnecting, stopping and disposing take from, and a per-connection
 * session that greets the client and answers each line it sends. Sockets are
 * opaque numbers, a connection's input is a sequence of reads, and the tasks
 * the source starts run here one after the other, as the caller invokes them.
 */
module Server {
  import opened Wrappers
  import Responses
  import Processor

  /** A client id (`Guid.NewGuid()` is an input of the model). */
  type Guid = nat

  /** An opaque handle for a `TcpClient`. */
  type Socket = nat

  /** `TcpClientConnection`: the id a client is registered under and its socket. */
  datatype TcpClientConnection = TcpClientConnection(clientId: Guid, socket: Socket)

  /** One `ReadLineAsync`: a line, the end of the stream (C# null), or an
      exception other than a cancellation. */
  datatype Read = Line(text: string) | EndOfStream | ReadFault

  /** One `AcceptTcpClientAsync`: a client with the id drawn for it and its
      remote end point when it has one, or an exception. */
  datatype Arrival = Accepted(clientId: Guid, socket: Socket, remoteEndPoint: Option<string>) | AcceptFault

  /** A raised `ClientConnected` event. */
  datatype Connected = Connected(clientId: Guid, remoteEndPoint: string)

  /** Whether `_listener` is null, created but not listening, or listening. */
  datatype ListenerState = NoListener | NotListening | Listening

  const WelcomeLine: string := "WELCOME SAURON_VISION_PROTOCOL"

  // ---------------------------------------------------------------------------
  // A session

  /** The lines a session processes: the non-empty lines read before the first
      empty line, end of stream or read fault. */
  function Session(input: seq<Read>): (lines: seq<string>)
    ensures |lines| <= |input|
    decreases |input|
  {
    if |input| == 0 then []
    else
      match input[0]
      case Line(text) => if text == "" then [] else [text] + Session(input[1..])
      case EndOfStream => []
      case ReadFault => []
  }

  /** Each line of a session is the non-empty line read at its position. */
  lemma {:induction false} SessionLinesAreRead(input: seq<Read>)
    ensures forall k :: 0 <= k < |Session(input)| ==> input[k] == Line(Session(input)[k]) && Session(input)[k] != ""
    decreases |input|
  {
    if |input| > 0 && input[0].Line? && input[0].text != "" {
      SessionLinesAreRead(input[1..]);
    }
  }

  /** The read that ends a session, if the input has one. */
  predicate Stops(r: Read) {
    !(r.Line? && r.text != "")
  }

  /** A session runs up to the first read that stops it, and no further. */
  lemma {:induction false} SessionEndsAtFirstStop(input: seq<Read>)
    ensures var n := |Session(input)|;
      (n == |input| || Stops(input[n])) && forall k :: 0 <= k < n ==> !Stops(input[k])
    decreases |input|
  {
    if |input| > 0 && !Stops(input[0]) {
      SessionEndsAtFirstStop(input[1..]);
      assert Session(input) == [input[0].text] + Session(input[1..]);
    }
  }

  /** Reads after the one that stops a session are never looked at. */
  lemma {:induction false} SessionIgnoresLaterReads(input: seq<Read>, more: seq<Read>)
    requires exists k :: 0 <= k < |input| && Stops(input[k])
    ensures Session(input + more) == Session(input)
    decreases |input|
  {
    if !Stops(input[0]) {
      assert (input + more)[1..] == input[1..] + more;
      var k :| 0 <= k < |input| && Stops(input[k]);
      assert Stops(input[1..][k - 1]);
      SessionIgnoresLaterReads(input[1..], more);
    }
  }

  /** The processor's reply to each line, in order. */
  function Replies(process: string -> string, lines: seq<string>): (replies: seq<string>)
    ensures |replies| == |lines|
    ensures forall k :: 0 <= k < |lines| ==> replies[k] == process(lines[k])
  {
    seq(|lines|, k requires 0 <= k < |lines| => process(lines[k]))
  }

  /** Everything written on a connection: the welcome line, then one reply per
      line of the session unless the server was already cancelled. */
  function Transcript(process: string -> string, input: seq<Read>, cancelled: bool): seq<string> {
    [WelcomeLine] + if cancelled then [] else Replies(process, Session(input))
  }

  /** The first line written is the welcome line; each later one answers the
      line read at the same position. */
  lemma TranscriptAnswersEachLine(process: string -> string, input: seq<Read>)
    ensures var t := Transcript(process, input, false);
      && t[0] == WelcomeLine
      && |t| == 1 + |Session(input)|
      && forall k :: 0 <= k < |Session(input)| ==>
           input[k].Line? && t[k + 1] == process(input[k].text)
  {
    var t := Transcript(process, input, false);
    SessionLinesAreRead(input);
    forall k | 0 <= k < |Session(input)|
      ensures input[k].Line? && t[k + 1] == process(input[k].text)
    {
      assert t[k + 1] == Replies(process, Session(input))[k];
    }
  }

  /** With the command processor plugged in, every reply after the welcome
      line decodes, on the client's side, to the response the processor built
      for the line read at the same position. */
  lemma ServedRepliesDecode(f: Processor.Factories, input: seq<Read>)
    requires Processor.WellFormed(f)
    ensures var t := Transcript(line => Processor.ProcessCommandAsync(f, line), input, false);
      forall k :: 1 <= k < |t| ==>
        input[k - 1].Line? && Responses.FromProtocolString(t[k]) == Some(Processor.ProcessResponse(f, input[k - 1].text))
  {
    var process := line => Processor.ProcessCommandAsync(f, line);
    TranscriptAnswersEachLine(process, input);
    var t := Transcript(process, input, false);
    forall k | 1 <= k < |t|
      ensures input[k - 1].Line? && Responses.FromProtocolString(t[k]) == Some(Processor.ProcessResponse(f, input[k - 1].text))
    {
      Processor.ReplyDecodes(f, input[k - 1].text);
    }
  }

  /** A read that does not stop the session adds its line to the lines
      handled so far. */
  lemma SessionStep(input: seq<Read>, i: nat, done: seq<string>)
    requires i < |input| && !Stops(input[i])
    requires Session(input) == done + Session(input[i..])
    ensures Session(input) == (done + [input[i].text]) + Session(input[i + 1..])
  {
    var line, rest := [input[i].text], Session(input[i + 1..]);
    assert Session(input[i..]) == line + rest by {
      assert input[i..][1..] == input[i + 1..];
    }
    assert done + (line + rest) == (done + line) + rest;
  }

  /** A read that stops the session leaves the lines handled so far as the
      whole session. */
  lemma SessionStop(input: seq<Read>, i: nat, done: seq<string>)
    requires i <= |input| && (i == |input| || Stops(input[i]))
    requires Session(input) == done + Session(input[i..])
    ensures Session(input) == done
  {
    assert Session(input[i..]) == [];
  }

  /** One more line, one more reply. */
  lemma RepliesSnoc(process: string -> string, lines: seq<string>, line: string)
    ensures Replies(process, lines + [line]) == Replies(process, lines) + [process(line)]
  {
  }

  /** The `while` loop of `HandleClientAsync`: writes the welcome line, then
      reads lines and writes the reply to each until a read stops it. */
  method Converse(process: string -> string, input: seq<Read>, cancelled: bool) returns (written: seq<string>)
    ensures written == Transcript(process, input, cancelled)
  {
    written := [WelcomeLine];
    if cancelled {
      return;
    }
    var i := 0;
    ghost var done: seq<string> := [];
    while i < |input|
      invariant 0 <= i <= |input|
      invariant Session(input) == done + Session(input[i..])
      invariant written == [WelcomeLine] + Replies(process, done)
      decreases |input| - i
    {
      var read := input[i];
      if Stops(read) {
        SessionStop(input, i, done);
        return;
      }
      SessionStep(input, i, done);
      RepliesSnoc(process, done, read.text);
      written := written + [process(read.text)];
      done := done + [read.text];
      i := i + 1;
    }
    SessionStop(input, i, done);
  }

  // ---------------------------------------------------------------------------
  // Accepting clients

  /** The outcome of a run of accepts: the registry, the connections whose
      handler was started, the connected events raised and the sockets of
      clients whose id could not be added. */
  datatype Admission = Admission(
    clients: map<Guid, TcpClientConnection>,
    started: seq<TcpClientConnection>,
    connected: seq<Connected>,
    rejected: set<Socket>)

  /** One pass of the accept loop: a new id is registered, announced and handed
      to a handler; an id already present is refused and its client disposed;
      a fault changes nothing. */
  function AcceptOne(a: Admission, arrival: Arrival): Admission {
    match arrival
    case AcceptFault => a
    case Accepted(id, socket, remote) =>
      if id in a.clients then a.(rejected := a.rejected + {socket})
      else
        var connection := TcpClientConnection(id, socket);
        Admission(a.clients[id := connection], a.started + [connection],
                  a.connected + [Connected(id, remote.GetOr("unknown"))], a.rejected)
  }

  function AcceptAll(a: Admission, arrivals: seq<Arrival>): Admission
    decreases |arrivals|
  {
    if |arrivals| == 0 then a
    else AcceptOne(AcceptAll(a, arrivals[..|arrivals| - 1]), arrivals[|arrivals| - 1])
  }

  /** Every registered connection is filed under its own id. */
  predicate FiledUnderOwnId(clients: map<Guid, TcpClientConnection>) {
    forall id :: id in clients ==> clients[id].clientId == id
  }

  /** What a run of accepts starting from `clients` has done so far: the old
      registrations are kept, every other registration is a started connection,
      each started connection is registered under a fresh id, no id is started
      twice, and each started connection was announced by an event of its own. */
  ghost predicate Admits(clients: map<Guid, TcpClientConnection>, a: Admission) {
    && FiledUnderOwnId(a.clients)
    && (forall id :: id in clients ==> id in a.clients && a.clients[id] == clients[id])
    && (forall id :: id in a.clients ==> id in clients || a.clients[id] in a.started)
    && (forall k :: 0 <= k < |a.started| ==>
          a.started[k].clientId !in clients && a.started[k].clientId in a.clients
          && a.clients[a.started[k].clientId] == a.started[k])
    && (forall j, k :: 0 <= j < k < |a.started| ==> a.started[j].clientId != a.started[k].clientId)
    && |a.connected| == |a.started|
    && (forall k :: 0 <= k < |a.started| ==> a.connected[k].clientId == a.started[k].clientId)
  }

  /** One pass of the accept loop keeps what accepting promises. */
  lemma AcceptOneAdmits(clients: map<Guid, TcpClientConnection>, a: Admission, arrival: Arrival)
    requires Admits(clients, a)
    ensures Admits(clients, AcceptOne(a, arrival))
  {
    if arrival.Accepted? && arrival.clientId !in a.clients {
      var b := AcceptOne(a, arrival);
      var id := arrival.clientId;
      assert b.started[|a.started|].clientId == id;
      forall k | 0 <= k < |a.started|
        ensures b.started[k].clientId != id
      {
        assert a.started[k].clientId in a.clients;
      }
    }
  }

  /** Accepting keeps every registration it finds, registers exactly the
      connections whose handler it starts, each under a fresh id and once, and
      raises one connected event per started connection. */
  lemma {:induction false} AcceptAllAdmits(clients: map<Guid, TcpClientConnection>, arrivals: seq<Arrival>)
    requires FiledUnderOwnId(clients)
    ensures Admits(clients, AcceptAll(Admission(clients, [], [], {}), arrivals))
    decreases |arrivals|
  {
    if |arrivals| > 0 {
      var prefix := arrivals[..|arrivals| - 1];
      AcceptAllAdmits(clients, prefix);
      AcceptOneAdmits(clients, AcceptAll(Admission(clients, [], [], {}), prefix), arrivals[|arrivals| - 1]);
    }
  }

  /** The state the accept loop has reached after the first `k` arrivals. */
  ghost function Prior(clients: map<Guid, TcpClientConnection>, arrivals: seq<Arrival>, k: nat): Admission
    requires k <= |arrivals|
  {
    AcceptAll(Admission(clients, [], [], {}), arrivals[..k])
  }

  /** Arrival `k` is a client whose id was already registered when it came, so
      `TryAdd` fails for it. */
  ghost predicate Refused(clients: map<Guid, TcpClientConnection>, arrivals: seq<Arrival>, k: nat)
    requires k < |arrivals|
  {
    arrivals[k].Accepted? && arrivals[k].clientId in Prior(clients, arrivals, k).clients
  }

  /** `a` carries on from `b`: the started handlers and the connected events
      grow at the end, and no registration or disposed socket is lost. */
  predicate Extends(b: Admission, a: Admission) {
    && |b.started| <= |a.started| && a.started[..|b.started|] == b.started
    && |b.connected| <= |a.connected| && a.connected[..|b.connected|] == b.connected
    && (forall id :: id in b.clients ==> id in a.clients && a.clients[id] == b.clients[id])
    && b.rejected <= a.rejected
  }

  /** Carrying on is transitive. */
  lemma ExtendsTransitive(a: Admission, b: Admission, c: Admission)
    requires Extends(a, b) && Extends(b, c)
    ensures Extends(a, c)
  {
    assert c.started[..|a.started|] == c.started[..|b.started|][..|a.started|];
    assert c.connected[..|a.connected|] == c.connected[..|b.connected|][..|a.connected|];
  }

  /** Later arrivals only extend what earlier ones did. */
  lemma {:induction false} AcceptAllExtends(clients: map<Guid, TcpClientConnection>, arrivals: seq<Arrival>, k: nat)
    requires k <= |arrivals|
    ensures Extends(Prior(clients, arrivals, k), AcceptAll(Admission(clients, [], [], {}), arrivals))
    decreases |arrivals|
  {
    if k < |arrivals| {
      var prefix := arrivals[..|arrivals| - 1];
      var b := AcceptAll(Admission(clients, [], [], {}), prefix);
      assert prefix[..k] == arrivals[..k];
      AcceptAllExtends(clients, prefix, k);
      assert Extends(b, AcceptOne(b, arrivals[|arrivals| - 1]));
      ExtendsTransitive(Prior(clients, arrivals, k), b, AcceptOne(b, arrivals[|arrivals| - 1]));
    } else {
      assert arrivals[..k] == arrivals;
      assert Extends(Prior(clients, arrivals, k), Prior(clients, arrivals, k));
    }
  }

  /** Each handler started is announced by one event. */
  lemma {:induction false} AcceptAllAnnouncesEach(clients: map<Guid, TcpClientConnection>, arrivals: seq<Arrival>)
    ensures var a := AcceptAll(Admission(clients, [], [], {}), arrivals);
      |a.connected| == |a.started|
    decreases |arrivals|
  {
    if |arrivals| > 0 {
      AcceptAllAnnouncesEach(clients, arrivals[..|arrivals| - 1]);
    }
  }

  /** Arrival `k` is a client whose id was not registered when it came, so
      `TryAdd` succeeds for it. */
  ghost predicate Fresh(clients: map<Guid, TcpClientConnection>, arrivals: seq<Arrival>, k: nat)
    requires k < |arrivals|
  {
    arrivals[k].Accepted? && arrivals[k].clientId !in Prior(clients, arrivals, k).clients
  }

  /** Every fresh arrival of `arrivals` is registered in `a` under its id with
      its socket, its handler is the one started next after the arrivals before
      it, and its event, with the remote end point or "unknown", is raised at
      the same position. */
  ghost predicate RegistersFresh(clients: map<Guid, TcpClientConnection>, arrivals: seq<Arrival>, a: Admission) {
    forall k :: 0 <= k < |arrivals| && Fresh(clients, arrivals, k) ==>
      var id, j := arrivals[k].clientId, |Prior(clients, arrivals, k).started|;
      var connection := TcpClientConnection(id, arrivals[k].socket);
      && id in a.clients && a.clients[id] == connection
      && j < |a.started| && a.started[j] == connection
      && j < |a.connected| && a.connected[j] == Connected(id, arrivals[k].remoteEndPoint.GetOr("unknown"))
  }

  /** An accepted client whose id is new is registered under that id and its
      handler is started, with its connected event raised. */
  lemma AcceptAllRegistersFresh(clients: map<Guid, TcpClientConnection>, arrivals: seq<Arrival>)
    ensures RegistersFresh(clients, arrivals, AcceptAll(Admission(clients, [], [], {}), arrivals))
  {
    var a := AcceptAll(Admission(clients, [], [], {}), arrivals);
    forall k | 0 <= k < |arrivals| && Fresh(clients, arrivals, k)
      ensures var id, j := arrivals[k].clientId, |Prior(clients, arrivals, k).started|;
        var connection := TcpClientConnection(id, arrivals[k].socket);
        && id in a.clients && a.clients[id] == connection
        && j < |a.started| && a.started[j] == connection
        && j < |a.connected| && a.connected[j] == Connected(id, arrivals[k].remoteEndPoint.GetOr("unknown"))
    {
      var p := Prior(clients, arrivals, k);
      var q := Prior(clients, arrivals, k + 1);
      assert arrivals[..k + 1][..k] == arrivals[..k];
      assert q == AcceptOne(p, arrivals[k]);
      AcceptAllAnnouncesEach(clients, arrivals[..k]);
      AcceptAllExtends(clients, arrivals, k + 1);
      assert a.started[|p.started|] == a.started[..|q.started|][|p.started|];
      assert a.connected[|p.connected|] == a.connected[..|q.connected|][|p.connected|];
    }
  }

  /** Dropping the last arrival does not change what the earlier ones did. */
  lemma PriorOfPrefix(clients: map<Guid, TcpClientConnection>, arrivals: seq<Arrival>, k: nat)
    requires k < |arrivals|
    ensures Prior(clients, arrivals[..|arrivals| - 1], k) == Prior(clients, arrivals, k)
    ensures k < |arrivals| - 1 ==> Refused(clients, arrivals[..|arrivals| - 1], k) == Refused(clients, arrivals, k)
  {
    assert arrivals[..|arrivals| - 1][..k] == arrivals[..k];
  }

  /** Every client whose id was already registered has its socket disposed. */
  lemma {:induction false} AcceptAllDisposesRefused(clients: map<Guid, TcpClientConnection>, arrivals: seq<Arrival>)
    ensures var a := AcceptAll(Admission(clients, [], [], {}), arrivals);
      forall k :: 0 <= k < |arrivals| && Refused(clients, arrivals, k) ==> arrivals[k].socket in a.rejected
    decreases |arrivals|
  {
    if |arrivals| > 0 {
      var prefix := arrivals[..|arrivals| - 1];
      AcceptAllDisposesRefused(clients, prefix);
      forall k | 0 <= k < |arrivals|
        ensures Prior(clients, prefix, k) == Prior(clients, arrivals, k)
        ensures k < |prefix| ==> Refused(clients, prefix, k) == Refused(clients, arrivals, k)
      {
        PriorOfPrefix(clients, arrivals, k);
      }
    }
  }

  /** Only a client whose id was already registered has its socket disposed
      by the accept loop. */
  lemma {:induction false} AcceptAllDisposesOnlyRefused(clients: map<Guid, TcpClientConnection>, arrivals: seq<Arrival>)
    ensures var a := AcceptAll(Admission(clients, [], [], {}), arrivals);
      forall s :: s in a.rejected ==>
        exists k :: 0 <= k < |arrivals| && Refused(clients, arrivals, k) && arrivals[k].socket == s
    decreases |arrivals|
  {
    if |arrivals| > 0 {
      var n := |arrivals| - 1;
      var prefix := arrivals[..n];
      var b := AcceptAll(Admission(clients, [], [], {}), prefix);
      var a := AcceptAll(Admission(clients, [], [], {}), arrivals);
      AcceptAllDisposesOnlyRefused(clients, prefix);
      forall s | s in a.rejected
        ensures exists k :: 0 <= k < |arrivals| && Refused(clients, arrivals, k) && arrivals[k].socket == s
      {
        if s in b.rejected {
          assert s in AcceptAll(Admission(clients, [], [], {}), prefix).rejected;
          assert exists k :: 0 <= k < |prefix| && Refused(clients, prefix, k) && prefix[k].socket == s;
          var k :| 0 <= k < |prefix| && Refused(clients, prefix, k) && prefix[k].socket == s;
          PriorOfPrefix(clients, arrivals, k);
          assert Refused(clients, arrivals, k) && arrivals[k].socket == s;
        } else {
          PriorOfPrefix(clients, arrivals, n);
          assert Refused(clients, arrivals, n) && arrivals[n].socket == s;
        }
      }
    }
  }

  /** Every handler in `a.started` that was started after a refused arrival
      came is for another id than that arrival's. */
  ghost predicate StartsNoRefused(clients: map<Guid, TcpClientConnection>, arrivals: seq<Arrival>, a: Admission) {
    forall k, j :: 0 <= k < |arrivals| && Refused(clients, arrivals, k) ==>
      (|Prior(clients, arrivals, k).started| <= j < |a.started| ==> a.started[j].clientId != arrivals[k].clientId)
  }

  /** No handler is started for a refused client: every handler started after
      it came is for another id. */
  lemma {:induction false} AcceptAllStartsNoRefused(clients: map<Guid, TcpClientConnection>, arrivals: seq<Arrival>)
    ensures StartsNoRefused(clients, arrivals, AcceptAll(Admission(clients, [], [], {}), arrivals))
    decreases |arrivals|
  {
    if |arrivals| > 0 {
      var n := |arrivals| - 1;
      var prefix := arrivals[..n];
      var b := AcceptAll(Admission(clients, [], [], {}), prefix);
      var a := AcceptAll(Admission(clients, [], [], {}), arrivals);
      AcceptAllStartsNoRefused(clients, prefix);
      forall k, j | 0 <= k < |arrivals| && Refused(clients, arrivals, k)
          && |Prior(clients, arrivals, k).started| <= j < |a.started|
        ensures a.started[j].clientId != arrivals[k].clientId
      {
        PriorOfPrefix(clients, arrivals, k);
        assert arrivals[..n] == prefix;
        // when the refused arrival is the last one, nothing is started after it
        if k < n {
          if j < |b.started| {
            assert a.started[j] == b.started[j];
            assert prefix[k] == arrivals[k] && Refused(clients, prefix, k);
            assert |Prior(clients, prefix, k).started| <= j < |b.started|;
            assert b.started[j].clientId != prefix[k].clientId;
          } else {
            // the handler started last is for the last arrival, whose id was new
            AcceptAllExtends(clients, prefix, k);
            assert arrivals[k].clientId in b.clients;
            assert arrivals[n].Accepted? && arrivals[n].clientId !in b.clients;
            assert a.started[j].clientId == arrivals[n].clientId;
          }
        }
      }
    }
  }

  /** The sockets of a registry's connections. */
  function Sockets(clients: map<Guid, TcpClientConnection>): set<Socket> {
    set id | id in clients :: clients[id].socket
  }

  /** Taking a connection out of a registry leaves the others' sockets. */
  lemma SocketsWithout(clients: map<Guid, TcpClientConnection>, id: Guid)
    requires id in clients
    ensures Sockets(clients) == Sockets(clients - {id}) + {clients[id].socket}
  {
    var rest := clients - {id};
    forall s | s in Sockets(clients)
      ensures s in Sockets(rest) + {clients[id].socket}
    {
      var j :| j in clients && clients[j].socket == s;
      if j != id {
        assert rest[j] == clients[j];
      }
    }
  }

  /** Taking an id out of a registry takes one copy of it out of its keys. */
  lemma KeysWithout(clients: map<Guid, TcpClientConnection>, id: Guid)
    requires id in clients
    ensures multiset((clients - {id}).Keys) + multiset{id} == multiset(clients.Keys)
  {
    assert clients.Keys == (clients - {id}).Keys + {id};
  }

  // ---------------------------------------------------------------------------
  // The server

  class TcpServer {
    /** The injected command processor. */
    const processor: string -> string
    var listener: ListenerState
    var cancellationRequested: bool
    var ctsDisposed: bool
    var clients: map<Guid, TcpClientConnection>
    var isDisposed: bool
    /** Sockets that have been closed or disposed. */
    var closedSockets: set<Socket>
    var connectedEvents: seq<Connected>
    var disconnectedEvents: seq<Guid>

    ghost predicate Valid()
      reads this
    {
      && FiledUnderOwnId(clients)
      && (ctsDisposed ==> cancellationRequested && isDisposed)
    }

    constructor(process: string -> string)
      ensures Valid()
      ensures processor == process && listener == NoListener && clients == map[]
      ensures !cancellationRequested && !ctsDisposed && !isDisposed
      ensures closedSockets == {} && connectedEvents == [] && disconnectedEvents == []
    {
      processor := process;
      listener := NoListener;
      cancellationRequested := false;
      ctsDisposed := false;
      clients := map[];
      isDisposed := false;
      closedSockets := {};
      connectedEvents := [];
      disconnectedEvents := [];
    }

    /** `StartAsync`: a port outside 0..65535 is refused before a listener is
        created; a listener that cannot bind is kept but does not listen; once
        disposed, the cancellation source is gone and reading its token throws
        after the listener has started. Every failure is rethrown, reported
        here as `ok == false`; on success the caller goes on to run the accept
        loop. */
    method Start(port: int, bindSucceeds: bool) returns (ok: bool)
      requires Valid()
      modifies this
      ensures Valid()
      ensures ok <==> 0 <= port <= 65535 && bindSucceeds && !ctsDisposed
      ensures listener == if !(0 <= port <= 65535) then old(listener) else if bindSucceeds then Listening else NotListening
      ensures clients == old(clients) && cancellationRequested == old(cancellationRequested)
      ensures ctsDisposed == old(ctsDisposed) && isDisposed == old(isDisposed)
      ensures closedSockets == old(closedSockets)
      ensures connectedEvents == old(connectedEvents) && disconnectedEvents == old(disconnectedEvents)
    {
      if !(0 <= port <= 65535) {
        return false;
      }
      listener := NotListening;
      if !bindSucceeds {
        return false;
      }
      listener := Listening;
      ok := !ctsDisposed;
    }

    /** `AcceptClientsAsync` over the accepts that happen before it is next
        suspended: nothing happens once cancellation is requested or without a
        listener, and an accept on a listener that does not listen faults. */
    method AcceptClients(arrivals: seq<Arrival>) returns (started: seq<TcpClientConnection>)
      requires Valid()
      modifies this
      ensures Valid()
      ensures var a := AcceptAll(Admission(old(clients), [], [], {}), arrivals);
        if old(cancellationRequested) || old(listener) != Listening then
          clients == old(clients) && started == [] && connectedEvents == old(connectedEvents)
          && closedSockets == old(closedSockets)
        else
          clients == a.clients && started == a.started
          && connectedEvents == old(connectedEvents) + a.connected
          && closedSockets == old(closedSockets) + a.rejected
      ensures listener == old(listener) && cancellationRequested == old(cancellationRequested)
      ensures ctsDisposed == old(ctsDisposed) && isDisposed == old(isDisposed)
      ensures disconnectedEvents == old(disconnectedEvents)
    {
      started := [];
      var i := 0;
      ghost var original := clients;
      while !cancellationRequested && i < |arrivals|
        invariant 0 <= i <= |arrivals|
        invariant Valid()
        invariant listener == old(listener) && cancellationRequested == old(cancellationRequested)
        invariant ctsDisposed == old(ctsDisposed) && isDisposed == old(isDisposed)
        invariant disconnectedEvents == old(disconnectedEvents)
        invariant old(cancellationRequested) ==> i == 0
        invariant listener != Listening ==>
          clients == original && started == [] && connectedEvents == old(connectedEvents)
          && closedSockets == old(closedSockets)
        invariant listener == Listening ==>
          var a := AcceptAll(Admission(original, [], [], {}), arrivals[..i]);
          clients == a.clients && started == a.started
          && connectedEvents == old(connectedEvents) + a.connected
          && closedSockets == old(closedSockets) + a.rejected
        decreases |arrivals| - i
      {
        if listener == NoListener {
          break;
        }
        assert arrivals[..i + 1][..i] == arrivals[..i];
        var arrival := arrivals[i];
        if listener == Listening && arrival.Accepted? {
          var id := arrival.clientId;
          if id !in clients {
            var connection := TcpClientConnection(id, arrival.socket);
            clients := clients[id := connection];
            connectedEvents := connectedEvents + [Connected(id, arrival.remoteEndPoint.GetOr("unknown"))];
            started := started + [connection];
          } else {
            closedSockets := closedSockets + {arrival.socket};
          }
        }
        i := i + 1;
      }
      assert arrivals[..|arrivals|] == arrivals;
    }

    /** `HandleClientAsync`: the session, then the `finally` that disconnects
        the client. A connection whose socket is already disposed fails at
        `GetStream` and writes nothing. */
    method HandleClient(connection: TcpClientConnection, input: seq<Read>) returns (written: seq<string>)
      requires Valid()
      modifies this
      ensures Valid()
      ensures written == if connection.socket in old(closedSockets) then []
                         else Transcript(processor, input, old(cancellationRequested))
      ensures clients == old(clients) - {connection.clientId}
      ensures disconnectedEvents == old(disconnectedEvents) +
                                    if connection.clientId in old(clients) then [connection.clientId] else []
      ensures closedSockets == old(closedSockets) +
                               if connection.clientId in old(clients) then {old(clients)[connection.clientId].socket} else {}
      ensures listener == old(listener) && cancellationRequested == old(cancellationRequested)
      ensures ctsDisposed == old(ctsDisposed) && isDisposed == old(isDisposed)
      ensures connectedEvents == old(connectedEvents)
    {
      if connection.socket in closedSockets {
        written := [];
      } else {
        written := Converse(processor, input, cancellationRequested);
      }
      DisconnectClient(connection.clientId);
    }

    /** `DisconnectClientAsync`: a registered client is removed, its socket
        closed and one disconnected event raised; an unknown id changes
        nothing, so a second call for the same id is a no-op. */
    method DisconnectClient(clientId: Guid)
      requires Valid()
      modifies this
      ensures Valid()
      ensures clients == old(clients) - {clientId}
      ensures disconnectedEvents == old(disconnectedEvents) + if clientId in old(clients) then [clientId] else []
      ensures closedSockets == old(closedSockets) + if clientId in old(clients) then {old(clients)[clientId].socket} else {}
      ensures clientId !in old(clients) ==> unchanged(this)
      ensures listener == old(listener) && cancellationRequested == old(cancellationRequested)
      ensures ctsDisposed == old(ctsDisposed) && isDisposed == old(isDisposed)
      ensures connectedEvents == old(connectedEvents)
    {
      if clientId in clients {
        var connection := clients[clientId];
        clients := clients - {clientId};
        closedSockets := closedSockets + {connection.socket};
        disconnectedEvents := disconnectedEvents + [clientId];
      }
    }

    /** `StopAsync`: cancels, stops the listener and disconnects every client,
        in the registry's (unspecified) order. After disposal the cancellation
        source is gone and `Cancel` throws before anything changes, reported as
        `ok == false`. */
    method Stop() returns (ok: bool)
      requires Valid()
      modifies this
      ensures Valid()
      ensures ok == !old(ctsDisposed)
      ensures !ok ==> unchanged(this)
      ensures ok ==> && cancellationRequested
                     && listener == (if old(listener) == NoListener then NoListener else NotListening)
                     && clients == map[]
                     && |disconnectedEvents| == |old(disconnectedEvents)| + |old(clients)|
                     && disconnectedEvents[..|old(disconnectedEvents)|] == old(disconnectedEvents)
                     && multiset(disconnectedEvents[|old(disconnectedEvents)|..]) == multiset(old(clients).Keys)
                     && closedSockets == old(closedSockets) + Sockets(old(clients))
      ensures ctsDisposed == old(ctsDisposed) && isDisposed == old(isDisposed)
      ensures connectedEvents == old(connectedEvents)
    {
      if ctsDisposed {
        return false;
      }
      ok := true;
      cancellationRequested := true;
      if listener != NoListener {
        listener := NotListening;
      }
      DisconnectAll();
    }

    /** The `foreach` of `StopAsync`: disconnects every registered client, one
        at a time, raising one disconnected event per client. */
    method DisconnectAll()
      requires Valid()
      modifies this
      ensures Valid()
      ensures clients == map[]
      ensures |disconnectedEvents| == |old(disconnectedEvents)| + |old(clients)|
      ensures disconnectedEvents[..|old(disconnectedEvents)|] == old(disconnectedEvents)
      ensures multiset(disconnectedEvents[|old(disconnectedEvents)|..]) == multiset(old(clients).Keys)
      ensures closedSockets == old(closedSockets) + Sockets(old(clients))
      ensures listener == old(listener) && cancellationRequested == old(cancellationRequested)
      ensures ctsDisposed == old(ctsDisposed) && isDisposed == old(isDisposed)
      ensures connectedEvents == old(connectedEvents)
    {
      ghost var gone: seq<Guid> := [];
      while clients != map[]
        invariant Valid()
        invariant listener == old(listener) && cancellationRequested == old(cancellationRequested)
        invariant ctsDisposed == old(ctsDisposed) && isDisposed == old(isDisposed)
        invariant connectedEvents == old(connectedEvents)
        invariant disconnectedEvents == old(disconnectedEvents) + gone
        invariant |gone| + |clients| == |old(clients)|
        invariant multiset(gone) + multiset(clients.Keys) == multiset(old(clients).Keys)
        invariant closedSockets + Sockets(clients) == old(closedSockets) + Sockets(old(clients))
        decreases |clients|
      {
        var id :| id in clients;
        SocketsWithout(clients, id);
        KeysWithout(clients, id);
        DisconnectClient(clients[id].clientId);
        gone := gone + [id];
      }
      assert disconnectedEvents[|old(disconnectedEvents)|..] == gone;
    }

    /** `Dispose()`. */
    method Dispose()
      requires Valid()
      modifies this
      ensures Valid()
      ensures old(isDisposed) ==> unchanged(this)
      ensures !old(isDisposed) ==> && isDisposed && cancellationRequested && ctsDisposed
                                   && listener == (if old(listener) == NoListener then NoListener else NotListening)
                                   && clients == map[]
                                   && closedSockets == old(closedSockets) + Sockets(old(clients))
      ensures disconnectedEvents == old(disconnectedEvents) && connectedEvents == old(connectedEvents)
    {
      DisposeCore(true);
    }

    /** `Dispose(bool)`: once disposed, nothing changes; otherwise, when
        disposing, cancels, disposes the cancellation source, stops the
        listener, disposes every client's socket without raising events and
        clears the registry. */
    method DisposeCore(disposing: bool)
      requires Valid()
      modifies this
      ensures Valid()
      ensures old(isDisposed) ==> unchanged(this)
      ensures !old(isDisposed) ==> isDisposed
      ensures !old(isDisposed) && !disposing ==>
        && clients == old(clients) && closedSockets == old(closedSockets)
        && cancellationRequested == old(cancellationRequested) && ctsDisposed == old(ctsDisposed)
        && listener == old(listener)
      ensures !old(isDisposed) && disposing ==>
        && cancellationRequested && ctsDisposed && clients == map[]
        && listener == (if old(listener) == NoListener then NoListener else NotListening)
        && closedSockets == old(closedSockets) + Sockets(old(clients))
      ensures disconnectedEvents == old(disconnectedEvents) && connectedEvents == old(connectedEvents)
    {
      if isDisposed {
        return;
      }
      if disposing {
        cancellationRequested := true;
        ctsDisposed := true;
        if listener != NoListener {
          listener := NotListening;
        }
        var remaining := clients;
        while remaining != map[]
          invariant clients == old(clients) && !isDisposed
          invariant cancellationRequested && ctsDisposed
          invariant listener == (if old(listener) == NoListener then NoListener else NotListening)
          invariant disconnectedEvents == old(disconnectedEvents) && connectedEvents == old(connectedEvents)
          invariant closedSockets + Sockets(remaining) == old(closedSockets) + Sockets(clients)
          decreases |remaining|
        {
          var id :| id in remaining;
          SocketsWithout(remaining, id);
          closedSockets := closedSockets + {remaining[id].socket};
          remaining := remaining - {id};
        }
        clients := map[];
      }
      isDisposed := true;
    }
  }
}

=== FILE: text.dfy ===
/**
 * The few .NET string and integer primitives the protocol is built on:
 * `char.IsWhiteSpace`, `string.IsNullOrWhiteSpace`, invariant case mapping,
 * `string.Split(char)` with and without a count, `string.Join`,
 * `int.TryParse` and the formatting of an `int` in an interpolated string.
 */
module Text {
  import opened Wrappers

  /** A C# `int`. */
  type Int32 = x: int | -0x8000_0000 <= x < 0x8000_0000

  // ---------------------------------------------------------------------------
  // Characters

  /** `char.IsWhiteSpace`: the control characters U+0009 to U+000D and U+0085,
      and the Unicode space, line and paragraph separators. */
  predicate IsWhiteSpace(c: char) {
    || ('\t' <= c <= '\r')
    || c == ' '
    || c == '\U{0085}'
    || c == '\U{00A0}'
    || c == '\U{1680}'
    || ('\U{2000}' <= c <= '\U{200A}')
    || c == '\U{2028}'
    || c == '\U{2029}'
    || c == '\U{202F}'
    || c == '\U{205F}'
    || c == '\U{3000}'
  }

  /** `string.IsNullOrWhiteSpace` on a non-null string: empty, or whitespace only. */
  predicate IsNullOrWhiteSpace(s: string) {
    forall i :: 0 <= i < |s| ==> IsWhiteSpace(s[i])
  }

  /** `char.ToUpperInvariant`, restricted to ASCII letters. */
  function ToUpper(c: char): char {
    if 'a' <= c <= 'z' then (c as int - 32) as char else c
  }

  /** `char.ToLowerInvariant`, restricted to ASCII letters. */
  function ToLower(c: char): char {
    if 'A' <= c <= 'Z' then (c as int + 32) as char else c
  }

  /** `string.ToUpperInvariant`. */
  function ToUpperString(s: string): (r: string)
    ensures |r| == |s|
    ensures forall i :: 0 <= i < |s| ==> r[i] == ToUpper(s[i])
  {
    seq(|s|, i requires 0 <= i < |s| => ToUpper(s[i]))
  }

  /** `string.ToLowerInvariant`. */
  function ToLowerString(s: string): (r: string)
    ensures |r| == |s|
    ensures forall i :: 0 <= i < |s| ==> r[i] == ToLower(s[i])
  {
    seq(|s|, i requires 0 <= i < |s| => ToLower(s[i]))
  }

  /** `a.Equals(b, StringComparison.OrdinalIgnoreCase)`. */
  predicate EqualsIgnoreCase(a: string, b: string) {
    ToUpperString(a) == ToUpperString(b)
  }

  /** Case mapping neither creates nor removes whitespace. */
  lemma UpperKeepsWhiteSpace(c: char)
    ensures IsWhiteSpace(ToUpper(c)) == IsWhiteSpace(c)
    ensures ToUpper(c) == ' ' <==> c == ' '
  {
  }

  /** Upper-casing an upper-cased string changes nothing. */
  lemma UpperIsIdempotent(s: string)
    ensures ToUpperString(ToUpperString(s)) == ToUpperString(s)
  {
    var u := ToUpperString(s);
    assert forall i :: 0 <= i < |u| ==> ToUpperString(u)[i] == u[i];
  }

  /** Comparing upper-cased and comparing lower-cased strings agree, so the
      ordinal case-insensitive comparison and matching after
      `ToLowerInvariant` identify the same strings. */
  lemma FoldingsAgree(a: string, b: string)
    ensures EqualsIgnoreCase(a, b) <==> ToLowerString(a) == ToLowerString(b)
  {
    if EqualsIgnoreCase(a, b) {
      forall i | 0 <= i < |a|
        ensures ToLowerString(a)[i] == ToLowerString(b)[i]
      {
        assert ToUpperString(a)[i] == ToUpperString(b)[i];
      }
    }
    if ToLowerString(a) == ToLowerString(b) {
      forall i | 0 <= i < |a|
        ensures ToUpperString(a)[i] == ToUpperString(b)[i]
      {
        assert ToLowerString(a)[i] == ToLowerString(b)[i];
      }
    }
  }

  // ---------------------------------------------------------------------------
  // Splitting and joining

  /** The index of the first `c` in `s`. */
  function IndexOf(s: string, c: char): (i: nat)
    requires c in s
    ensures i < |s| && s[i] == c && c !in s[..i]
  {
    if s[0] == c then 0 else 1 + IndexOf(s[1..], c)
  }

  /** `s.Split(sep)`: the pieces between successive occurrences of `sep`,
      empty pieces included, so there is always at least one piece. */
  function Split(s: string, sep: char): (parts: seq<string>)
    ensures |parts| >= 1
    decreases |s|
  {
    if sep !in s then [s]
    else
      var i := IndexOf(s, sep);
      [s[..i]] + Split(s[i + 1..], sep)
  }

  /** `string.Join(sep, parts)`. */
  function Join(sep: string, parts: seq<string>): string {
    if |parts| == 0 then ""
    else if |parts| == 1 then parts[0]
    else parts[0] + sep + Join(sep, parts[1..])
  }

  /** The pieces of `parts` that are not empty, in order
      (`StringSplitOptions.RemoveEmptyEntries`). */
  function RemoveEmpty(parts: seq<string>): (r: seq<string>)
    ensures forall k :: 0 <= k < |r| ==> r[k] != "" && r[k] in parts
  {
    if |parts| == 0 then []
    else if parts[0] == "" then RemoveEmpty(parts[1..])
    else [parts[0]] + RemoveEmpty(parts[1..])
  }

  /** `s.Split(' ', StringSplitOptions.RemoveEmptyEntries)`. */
  function Tokens(s: string): seq<string> {
    RemoveEmpty(Split(s, ' '))
  }

  /** `s.Split(sep, count)`: at most `count` pieces; the last piece is the rest of
      the string, separators included. */
  function SplitAtMost(s: string, sep: char, count: nat): (parts: seq<string>)
    requires count >= 1
    ensures 1 <= |parts| <= count
    decreases count
  {
    if count == 1 || sep !in s then [s]
    else
      var i := IndexOf(s, sep);
      [s[..i]] + SplitAtMost(s[i + 1..], sep, count - 1)
  }

  /** The first separator after a separator-free prefix is the one that ends it. */
  lemma {:induction false} IndexOfAfterPrefix(x: string, y: string, sep: char)
    requires sep !in x
    ensures IndexOf(x + [sep] + y, sep) == |x|
  {
    if |x| > 0 {
      assert (x + [sep] + y)[1..] == x[1..] + [sep] + y;
      IndexOfAfterPrefix(x[1..], y, sep);
    }
  }

  /** A bounded split cuts at the first separator and splits the rest with one
      piece fewer. */
  lemma SplitAtMostAfterPrefix(x: string, y: string, sep: char, count: nat)
    requires sep !in x && count >= 2
    ensures SplitAtMost(x + [sep] + y, sep, count) == [x] + SplitAtMost(y, sep, count - 1)
  {
    var s := x + [sep] + y;
    IndexOfAfterPrefix(x, y, sep);
    assert s[..|x|] == x && s[|x| + 1..] == y;
  }

  /** With separator-free first and second pieces, a split into three pieces
      gives them back, and the third keeps every later separator. */
  lemma SplitAtFirstTwo(x: string, y: string, z: string, sep: char)
    requires sep !in x && sep !in y
    ensures SplitAtMost(x + [sep] + y + [sep] + z, sep, 3) == [x, y, z]
  {
    RegroupAtSep(x, y, z, sep);
    SplitAtMostAfterPrefix(x, y + [sep] + z, sep, 3);
    SplitAtMostAfterPrefix(y, z, sep, 2);
  }

  /** A string with at most one separator splits into at most two pieces. */
  lemma SplitAtMostOneSep(s: string, sep: char)
    requires forall i, j :: 0 <= i < j < |s| ==> !(s[i] == sep && s[j] == sep)
    ensures |SplitAtMost(s, sep, 3)| <= 2
  {
    if sep in s {
      var i := IndexOf(s, sep);
      var rest := s[i + 1..];
      assert sep !in rest by {
        forall k | 0 <= k < |rest| ensures rest[k] != sep {
          assert rest[k] == s[i + 1 + k];
        }
      }
    }
  }

  /** A string is the part before an index, the character there, and the part after. */
  lemma CutAt(s: string, i: nat)
    requires i < |s|
    ensures s == s[..i] + [s[i]] + s[i + 1..]
  {
  }

  lemma AppendAssoc<T>(a: seq<T>, b: seq<T>, c: seq<T>)
    ensures a + (b + c) == (a + b) + c
  {
  }

  /** Appending is associative around a separator. */
  lemma RegroupAtSep(w: string, r: string, y: string, sep: char)
    ensures w + [sep] + r + [sep] + y == w + [sep] + (r + [sep] + y)
  {
  }

  /** A split cuts at the first separator and splits the rest. */
  lemma SplitAfterPrefix(x: string, y: string, sep: char)
    requires sep !in x
    ensures Split(x + [sep] + y, sep) == [x] + Split(y, sep)
  {
    var s := x + [sep] + y;
    IndexOfAfterPrefix(x, y, sep);
    assert s[..|x|] == x && s[|x| + 1..] == y;
  }

  /** Splitting and joining again with the same separator gives back the string. */
  lemma {:induction false} JoinSplit(s: string, sep: char)
    ensures Join([sep], Split(s, sep)) == s
    decreases |s|
  {
    if sep in s {
      var i := IndexOf(s, sep);
      var w, r := s[..i], s[i + 1..];
      JoinSplit(r, sep);
      assert Split(s, sep)[1..] == Split(r, sep);
      CutAt(s, i);
    }
  }

  /** No piece of a split contains the separator. */
  lemma {:induction false} SplitPartsAvoidSep(s: string, sep: char)
    ensures forall k :: 0 <= k < |Split(s, sep)| ==> sep !in Split(s, sep)[k]
    decreases |s|
  {
    if sep in s {
      var i := IndexOf(s, sep);
      var r := s[i + 1..];
      SplitPartsAvoidSep(r, sep);
      forall k | 0 <= k < |Split(s, sep)|
        ensures sep !in Split(s, sep)[k]
      {
        if k > 0 {
          assert Split(s, sep)[k] == Split(r, sep)[k - 1];
        }
      }
    }
  }

  /** A separator splits the string into the pieces on either side of it. */
  lemma {:induction false} SplitAtSep(x: string, y: string, sep: char)
    ensures Split(x + [sep] + y, sep) == Split(x, sep) + Split(y, sep)
    decreases |x|
  {
    if sep !in x {
      SplitAfterPrefix(x, y, sep);
    } else {
      var i := IndexOf(x, sep);
      var w, r := x[..i], x[i + 1..];
      CutAt(x, i);
      calc {
        Split(x + [sep] + y, sep);
        { RegroupAtSep(w, r, y, sep); }
        Split(w + [sep] + (r + [sep] + y), sep);
        { SplitAfterPrefix(w, r + [sep] + y, sep); }
        [w] + Split(r + [sep] + y, sep);
        { SplitAtSep(r, y, sep); }
        [w] + (Split(r, sep) + Split(y, sep));
        { AppendAssoc([w], Split(r, sep), Split(y, sep)); }
        ([w] + Split(r, sep)) + Split(y, sep);
        { SplitAfterPrefix(w, r, sep); }
        Split(x, sep) + Split(y, sep);
      }
    }
  }

  lemma {:induction false} RemoveEmptyConcat(a: seq<string>, b: seq<string>)
    ensures RemoveEmpty(a + b) == RemoveEmpty(a) + RemoveEmpty(b)
  {
    if |a| > 0 {
      assert (a + b)[0] == a[0];
      assert (a + b)[1..] == a[1..] + b;
      RemoveEmptyConcat(a[1..], b);
      if a[0] != "" {
        assert RemoveEmpty(a + b) == [a[0]] + (RemoveEmpty(a[1..]) + RemoveEmpty(b));
      }
    } else {
      assert a + b == b;
    }
  }

  /** A space splits a line's tokens into the tokens on either side of it, so a
      run of spaces separates tokens exactly as one space does. */
  lemma TokensAtSpace(x: string, y: string)
    ensures Tokens(x + " " + y) == Tokens(x) + Tokens(y)
  {
    SplitAtSep(x, y, ' ');
    RemoveEmptyConcat(Split(x, ' '), Split(y, ' '));
  }

  /** A non-empty word without a space, tabs included, is a single token. */
  lemma TokensOfWord(w: string)
    requires w != "" && ' ' !in w
    ensures Tokens(w) == [w]
  {
    assert [w][1..] == [];
    assert RemoveEmpty([w]) == [w] + RemoveEmpty([]);
  }

  /** Every token is non-empty and holds no space. */
  lemma TokensAreWords(s: string)
    ensures forall k :: 0 <= k < |Tokens(s)| ==> Tokens(s)[k] != "" && ' ' !in Tokens(s)[k]
  {
    SplitPartsAvoidSep(s, ' ');
  }

  /** A non-empty text with no leading, trailing or doubled spaces. */
  predicate WellSpaced(a: string) {
    && a != ""
    && a[0] != ' '
    && a[|a| - 1] != ' '
    && forall i :: 0 <= i < |a| - 1 ==> !(a[i] == ' ' && a[i + 1] == ' ')
  }

  /** Joining the tokens of a well-spaced text with single spaces gives it back. */
  lemma {:induction false} JoinTokensWellSpaced(a: string)
    requires WellSpaced(a)
    ensures Tokens(a) != []
    ensures Join(" ", Tokens(a)) == a
    decreases |a|
  {
    if ' ' !in a {
      TokensOfWord(a);
    } else {
      var i := IndexOf(a, ' ');
      var w, rest := a[..i], a[i + 1..];
      assert a == w + " " + rest;
      assert rest[0] == a[i + 1];
      assert forall j :: 0 <= j < |rest| ==> rest[j] == a[i + 1 + j];
      JoinTokensWellSpaced(rest);
      TokensAtSpace(w, rest);
      TokensOfWord(w);
      assert Tokens(a) == [w] + Tokens(rest);
      assert ([w] + Tokens(rest))[1..] == Tokens(rest);
    }
  }

  // ---------------------------------------------------------------------------
  // Integers

  predicate IsDigit(c: char) {
    '0' <= c <= '9'
  }

  predicate AllDigits(s: string) {
    forall i :: 0 <= i < |s| ==> IsDigit(s[i])
  }

  function DigitChar(d: nat): char
    requires d < 10
  {
    ('0' as int + d) as char
  }

  /** The value of a string of decimal digits, most significant first. */
  function DigitsValue(s: string): nat
    requires AllDigits(s)
  {
    if |s| == 0 then 0
    else 10 * DigitsValue(s[..|s| - 1]) + (s[|s| - 1] as int - '0' as int)
  }

  /** The shortest decimal spelling of `n`. */
  function NatToString(n: nat): (s: string)
    ensures s != [] && AllDigits(s)
  {
    if n < 10 then [DigitChar(n)] else NatToString(n / 10) + [DigitChar(n % 10)]
  }

  /** `n.ToString()` with the invariant culture's minus sign, as an interpolated
      string formats an `int`. */
  function Int32ToString(n: Int32): string {
    if n < 0 then "-" + NatToString(-(n as int)) else NatToString(n)
  }

  /** The white space that `NumberStyles.Integer` lets surround a number. */
  predicate IsNumberWhite(c: char) {
    ('\t' <= c <= '\r') || c == ' '
  }

  function TrimStart(s: string): string {
    if |s| > 0 && IsNumberWhite(s[0]) then TrimStart(s[1..]) else s
  }

  function TrimEnd(s: string): string {
    if |s| > 0 && IsNumberWhite(s[|s| - 1]) then TrimEnd(s[..|s| - 1]) else s
  }

  /** `int.TryParse(s, out n)`: optional surrounding white space, an optional
      sign, one or more decimal digits, and a value that fits in an `int`. */
  function TryParseInt32(s: string): Option<Int32> {
    var t := TrimEnd(TrimStart(s));
    var signed := |t| > 0 && (t[0] == '-' || t[0] == '+');
    var digits := if signed then t[1..] else t;
    if |digits| == 0 || !AllDigits(digits) then None
    else
      var v: int := if signed && t[0] == '-' then -(DigitsValue(digits) as int) else DigitsValue(digits);
      if -0x8000_0000 <= v < 0x8000_0000 then Some(v) else None
  }

  lemma {:induction false} DigitsOfNat(n: nat)
    ensures DigitsValue(NatToString(n)) == n
  {
    var s := NatToString(n);
    if n >= 10 {
      DigitsOfNat(n / 10);
      assert s[..|s| - 1] == NatToString(n / 10);
    }
  }

  /** Parsing a formatted `int` gives the `int` back. */
  lemma ParseFormattedInt32(n: Int32)
    ensures TryParseInt32(Int32ToString(n)) == Some(n)
  {
    var s := Int32ToString(n);
    FormattedInt32IsTrimmed(n);
    if n < 0 {
      var m: nat := -(n as int);
      assert s == "-" + NatToString(m);
      assert s[1..] == NatToString(m);
      DigitsOfNat(m);
    } else {
      assert s == NatToString(n);
      assert !(s[0] == '-' || s[0] == '+');
      DigitsOfNat(n);
    }
  }

  /** A formatted `int` starts with a sign or a digit and ends with a digit. */
  lemma FormattedInt32IsTrimmed(n: Int32)
    ensures TrimEnd(TrimStart(Int32ToString(n))) == Int32ToString(n)
  {
    var s := Int32ToString(n);
    var d := NatToString(if n < 0 then -(n as int) else n);
    assert IsDigit(d[|d| - 1]);
    assert s[|s| - 1] == d[|d| - 1];
    assert !IsNumberWhite(s[0]) by {
      if n >= 0 { assert IsDigit(d[0]); }
    }
  }

  /** A formatted `int` is a single non-empty word. */
  lemma FormattedInt32IsWord(n: Int32)
    ensures Int32ToString(n) != "" && ' ' !in Int32ToString(n)
  {
    var s := NatToString(if n < 0 then -(n as int) else n);
    assert forall i :: 0 <= i < |s| ==> IsDigit(s[i]);
  }

  lemma {:induction false} TrimStartKeepsChars(s: string)
    ensures forall c :: c in TrimStart(s) ==> c in s
    decreases |s|
  {
    if |s| > 0 && IsNumberWhite(s[0]) {
      TrimStartKeepsChars(s[1..]);
    }
  }

  lemma {:induction false} TrimEndKeepsChars(s: string)
    ensures forall c :: c in TrimEnd(s) ==> c in s
    decreases |s|
  {
    if |s| > 0 && IsNumberWhite(s[|s| - 1]) {
      TrimEndKeepsChars(s[..|s| - 1]);
    }
  }

  /** Trimming at the start keeps every character that is not number white
      space. */
  lemma {:induction false} TrimStartKeepsSolid(s: string)
    ensures forall i :: 0 <= i < |s| && !IsNumberWhite(s[i]) ==> s[i] in TrimStart(s)
    decreases |s|
  {
    if |s| > 0 && IsNumberWhite(s[0]) {
      TrimStartKeepsSolid(s[1..]);
      forall i | 0 <= i < |s| && !IsNumberWhite(s[i])
        ensures s[i] in TrimStart(s)
      {
        assert s[1..][i - 1] == s[i];
      }
    }
  }

  /** Trimming at the end keeps every character that is not number white
      space. */
  lemma {:induction false} TrimEndKeepsSolid(s: string)
    ensures forall i :: 0 <= i < |s| && !IsNumberWhite(s[i]) ==> s[i] in TrimEnd(s)
    decreases |s|
  {
    if |s| > 0 && IsNumberWhite(s[|s| - 1]) {
      TrimEndKeepsSolid(s[..|s| - 1]);
      forall i | 0 <= i < |s| && !IsNumberWhite(s[i])
        ensures s[i] in TrimEnd(s)
      {
        assert s[..|s| - 1][i] == s[i];
      }
    }
  }

  /** A character that can have no place in an integer: not a digit, not a
      sign and not the white space that may surround the number. */
  predicate NonNumeric(c: char) {
    !IsDigit(c) && !IsNumberWhite(c) && c != '-' && c != '+'
  }

  /** Text holding any character that cannot be part of an integer does not
      parse: "7x", "1.5" and "abc" are all refused. */
  lemma NonNumericIsNone(s: string, i: nat)
    requires i < |s| && NonNumeric(s[i])
    ensures TryParseInt32(s) == None
  {
    var t := TrimEnd(TrimStart(s));
    TrimStartKeepsSolid(s);
    var u := TrimStart(s);
    var k :| 0 <= k < |u| && u[k] == s[i];
    TrimEndKeepsSolid(u);
    var j :| 0 <= j < |t| && t[j] == s[i];
    if |t| > 0 && (t[0] == '-' || t[0] == '+') {
      assert j > 0 && t[1..][j - 1] == s[i];
    }
  }

  /** Text that parses as an `int` holds a digit, so it is not blank. */
  lemma ParsedIsNotBlank(s: string)
    requires TryParseInt32(s).Some?
    ensures !IsNullOrWhiteSpace(s)
  {
    var t := TrimEnd(TrimStart(s));
    var digits := if |t| > 0 && (t[0] == '-' || t[0] == '+') then t[1..] else t;
    var d := digits[0];
    assert IsDigit(d) && d in t;
    TrimEndKeepsChars(TrimStart(s));
    TrimStartKeepsChars(s);
    var i :| 0 <= i < |s| && s[i] == d;
    assert !IsWhiteSpace(s[i]);
  }
}

=== FILE: wrappers.dfy ===
/** Option stands for a C# reference that may be null; Result for a value or a caught exception. */
module Wrappers {

  datatype Option<+T> = None | Some(value: T) {

    /** The value, or `default` when there is none. */
    function GetOr(default: T): T {
      match this
      case Some(v) => v
      case None => default
    }
  }

  datatype Result<+R, +E> = Success(value: R) | Failure(error: E)
}
